=== FILE: README.md ===
# trajcontrol sensor processing and Jacobian estimator, in Dafny

This project models two ROS 2 nodes of trajcontrol, a needle-steering controller.

The first is the **sensor-processing node** (`SensorProcessing`):
- It receives electromagnetic-tracker transforms for the needle tip (`NeedleToTracker`) and the needle base (`BaseToTracker`).
- It registers the tracker frame to the robot stage frame. The operator can collect ten points with ENTER, after which Horn's closed-form absolute orientation is solved (`find_registration`). Alternatively the node reloads a stored transform.
- Once a registration exists, it smooths each channel over a trailing window, maps it into the stage frame with a quaternion frame change (`pose_transform`), and publishes it. The base pose is lowered by 30.9 in z before publishing.
- SPACE stores the latest smoothed tip pose as the skin entry point.

The second is the **Jacobian estimator** (`deprecated_estimator.py`). It keeps a 7×7 Jacobian from needle-base motion to needle-tip motion. The Jacobian starts from a fixed prior and is corrected by a memory-1 secant (Broyden) update on every robot message, once previous samples exist.

All arithmetic is exact over `real`. Quaternions are scalar-first, as in numpy-quaternion.

Modules:
- `Wrappers`: `Option`.
- `Quaternion`: 3-vectors; the Hamilton product, conjugate, norm and rotation by sandwich product; associativity, norm multiplicativity and rotation composition.
- `Frames`: poses and `pose_transform`.
- `Registration`: centroids, centring, the cross-covariance `M`, Horn's matrix `N`, the rotation matrix `R(q)`, the translation, and Horn's objective.
- `Linalg`: real vectors and matrices as sequences, for the estimator.
- `Estimator`: the estimator node's state, callbacks and runs.
- `SensorNode`: the sensor node's state, its tracker and keyboard callbacks, and the published filtered poses.
- `Bootstrap`: `get_registration`, `get_entry_point` and the two start-up loops of `main`, modelled as runs over a sequence of loop passes, with the invariants they keep.

Start-up and the estimator's time step, as the code behaves:
- A registration file that is missing or cannot be opened does not stop start-up. The registration loop logs a message and tries again on the next pass (`NoFileKeepsWaiting`).
- A loaded registration still goes through the entry-point loop before streaming starts (`RegistrationFirst`).
- The estimator divides by the time step without a guard. A negative step is a valid update. Only a zero step, which has no real-valued result, gives `None` (`RobotCallback`). Because the model's arithmetic is exact, two stamps with different `Nanos` always give a non-zero step. In the source's float64 arithmetic, `sec·1e9` is exact, but adding `nanosec` at present-day epochs rounds to a multiple of 256 ns. So two stamps whose float64 nanosecond counts round to the same multiple of 256 ns also give a zero step and a division by zero. That can happen only when they are less than 256 ns apart.

## Model

| member | source | states |
|---|---|---|
| Quaternion.Rotate | trajcontrol/sensor_processing.py:254-256 | the scalar part of `q ⊗ (0,p) ⊗ q̄` is zero, so keeping only the vector part loses nothing |
| Quaternion.MulNormSq | trajcontrol/sensor_processing.py:253 | the squared norm of `q_tf ⊗ q_orig` is the product of the squared norms |
| Quaternion.MulAssoc | trajcontrol/sensor_processing.py:253-254 | the Hamilton product is associative |
| Quaternion.ConjMul | trajcontrol/sensor_processing.py:254 | conjugation reverses a product |
| Quaternion.ConjTimesSelf | trajcontrol/sensor_processing.py:254 | `q̄ ⊗ q = q ⊗ q̄ = ‖q‖²` |
| Quaternion.RotateLengthSq | trajcontrol/sensor_processing.py:254-256 | the rotated position has squared length `‖q‖⁴·‖p‖²`, so a unit rotation keeps lengths |
| Quaternion.RotateCompose | trajcontrol/sensor_processing.py:253-254 | rotating by `p` after `q` is rotating by `p ⊗ q` |
| Quaternion.RotateByConj | trajcontrol/sensor_processing.py:254 | rotating back by the conjugate scales by `‖q‖⁴`, so a unit rotation is undone |
| Quaternion.RotateAdd | trajcontrol/sensor_processing.py:254 | rotation is additive in the vector |
| Quaternion.RotateSub | trajcontrol/sensor_processing.py:254 | rotation distributes over differences |
| Quaternion.IdentityNeutral | trajcontrol/sensor_processing.py:253-254 | the quaternion `(1,0,0,0)` is a left and right identity of the product and leaves vectors unchanged |
| Frames.PoseTransform | trajcontrol/sensor_processing.py:242-257 | the new position is the sandwich product plus the translation; the squared norm of the new orientation is `‖q_tf‖²·‖q_orig‖²`, so unit inputs give a unit output; the offset from the translation has squared length `‖q_tf‖⁴·‖p‖²` |
| Frames.TransformPosition | trajcontrol/sensor_processing.py:254-256 | the new position is the rotated old position plus the translation, whatever the old orientation |
| Frames.IdentityRotationShifts | trajcontrol/sensor_processing.py:242-257 | with `q_tf = (1,0,0,0)` the position is shifted by `t` and the orientation kept; with `t = 0` too the transform is the identity |
| Frames.TransformKeepsDistance | trajcontrol/sensor_processing.py:254-256 | a unit transform keeps the distance between any two positions |
| Frames.InverseUndoes | trajcontrol/sensor_processing.py:253-254 | a unit transform followed by its inverse gives back the original pose |
| Registration.SumCenter | trajcontrol/sensor_processing.py:212-213 | shifting `n` points by `-c` lowers their sum by `n·c` |
| Registration.CenteredSumZero | trajcontrol/sensor_processing.py:210-213 | after centring, the columns of `A` (and of `B`) sum to zero |
| Registration.HornMatrix | trajcontrol/sensor_processing.py:217-220 | `N` is 4×4 and symmetric, with trace zero |
| Registration.RotateFormula | trajcontrol/sensor_processing.py:224-225 | the sandwich product equals the closed form `(w²−‖u‖²)v + 2(u·v)u + 2w(u×v)` |
| Registration.RotationMatrixRotates | trajcontrol/sensor_processing.py:224-225 | for every `q`, unit or not, `R(q)·v` is the vector part of `q ⊗ (0,v) ⊗ q̄` |
| Registration.FindRegistration | trajcontrol/sensor_processing.py:206-231 | the rotation is what the eigen-solver picks for `N`; the rotation and translation carry centroid(A) onto centroid(B) |
| Registration.RegistrationMapsCentroid | trajcontrol/sensor_processing.py:224-228 | `pose_transform` with the computed transform maps centroid(A) exactly onto centroid(B), for any eigenvector choice |
| Registration.RegistrationOfPoint | trajcontrol/sensor_processing.py:224-230 | each registered point is the stage centroid plus its own centred position, rotated |
| Registration.RotateScale | trajcontrol/sensor_processing.py:224-225 | rotation commutes with scaling |
| Registration.PairingAdd | trajcontrol/sensor_processing.py:216 | `trace(R(q)·M)` is additive in `M` |
| Registration.PairingOuter | trajcontrol/sensor_processing.py:216 | `trace(R(q)·a·bᵀ)` is `b · R(q)a` |
| Registration.HornQuadForm | trajcontrol/sensor_processing.py:217-220 | `qᵀ·N·q` equals `trace(R(q)·M)` |
| Registration.PairingCrossCovariance | trajcontrol/sensor_processing.py:216 | `trace(R(q)·A·Bᵀ)` is the fit score `Σ b[i] · R(q)a[i]` |
| Registration.HornObjective | trajcontrol/sensor_processing.py:216-220 | `qᵀ·N·q` is the fit score of `q` on the centred point pairs |
| Registration.RegistrationMaximisesFit | trajcontrol/sensor_processing.py:221-223 | if the eigen-solver returns a unit quaternion that maximises `qᵀNq`, the registration rotation fits the centred pairs at least as well as every unit rotation |
| Linalg.VSub | trajcontrol/deprecated_estimator.py:95-96 | the difference of two samples, entry by entry |
| Linalg.VDiv | trajcontrol/deprecated_estimator.py:95-96 | dividing by `Δt`: each entry times `Δt` gives back the numerator |
| Linalg.DotSelfZero | trajcontrol/deprecated_estimator.py:100 | `ΔXᵀΔX` is zero exactly when `ΔX` is the zero vector |
| Linalg.DotAxpy | trajcontrol/deprecated_estimator.py:100 | the inner product is linear in its first argument |
| Linalg.RankOneApply | trajcontrol/deprecated_estimator.py:100 | a rank-one update `A + k·u·dᵀ` changes `(A·v)[i]` by `k·u[i]·(dᵀv)` |
| Estimator.DeltaT | trajcontrol/deprecated_estimator.py:91 | the time step is zero or positive exactly when the nanosecond instants are equal or increasing |
| Estimator.DeltaTAdditive | trajcontrol/deprecated_estimator.py:91 | time steps add up along three stamps |
| Estimator.DeltaTWholeSeconds | trajcontrol/deprecated_estimator.py:91 | stamps with equal nanoseconds are their whole-second difference apart |
| Estimator.PoseVector | trajcontrol/deprecated_estimator.py:85-86 | a pose message becomes a 7-vector |
| Estimator.PoseVectorInjective | trajcontrol/deprecated_estimator.py:85-86 | two poses give the same vector exactly when they are equal |
| Estimator.Denominator | trajcontrol/deprecated_estimator.py:100 | `ΔXᵀΔX + 1e-9` is strictly positive, so only `Δt = 0` can divide by zero |
| Estimator.GainScalesError | trajcontrol/deprecated_estimator.py:100 | each gain entry times the denominator is the prediction error `ΔZ[i] − (J·ΔX)[i]` |
| Estimator.JacobianUpdate | trajcontrol/deprecated_estimator.py:100 | the updated Jacobian keeps the shape of `J` |
| Estimator.UpdateActsAlongStep | trajcontrol/deprecated_estimator.py:100 | row `i` of the update acts on `v` as before plus `α·gain[i]·(ΔXᵀv)` |
| Estimator.UpdateKeepsOrthogonal | trajcontrol/deprecated_estimator.py:100 | directions orthogonal to `ΔX` are mapped exactly as before (memory-1 property) |
| Estimator.UpdateCorrects | trajcontrol/deprecated_estimator.py:100 | scaled by the denominator, the update adds `α·(ΔXᵀv)` times the prediction error to `(J·v)[i]` |
| Estimator.UpdateSecant | trajcontrol/deprecated_estimator.py:100 | along `ΔX` the prediction moves toward `ΔZ` by `α·‖ΔX‖²/(‖ΔX‖²+1e-9)` of the error (stated multiplied out, as `RowCorrected`) |
| Estimator.UpdateEntry | trajcontrol/deprecated_estimator.py:100 | entry `J[i][k]` moves by `α·ΔX[k]·(ΔZ[i] − (J·ΔX)[i]) / (ΔXᵀΔX + 1e-9)` (stated multiplied out, as `EntryCorrected`) |
| Estimator.UpdateUnchanged | trajcontrol/deprecated_estimator.py:99-100 | `α = 0`, `ΔX = 0` or a perfect prediction `ΔZ = J·ΔX` each leave `J` unchanged |
| Estimator.Init | trajcontrol/deprecated_estimator.py:42-55 | the Jacobian starts as the fixed 7×7 prior, with no tip pose, base pose or previous samples stored, and both previous instants at the construction time |
| Estimator.SensorCallback | trajcontrol/deprecated_estimator.py:60-63 | only the tip pose changes; `J` and the previous samples are kept |
| Estimator.BaseRate | trajcontrol/deprecated_estimator.py:91-95 | `ΔX` is a 7-vector which, times the time step, carries `Xant` onto the new base pose |
| Estimator.TipRate | trajcontrol/deprecated_estimator.py:91-96 | `ΔZ` is a 7-vector which, times the base's time step, carries `Zant` onto the latest tip pose |
| Estimator.RobotCallback | trajcontrol/deprecated_estimator.py:78-116 | on the cold branch `J` is kept, `Xant` and `TXant` become the new sample and stamp, and `Zant` is set only if a tip pose exists; on the warm branch the current samples and stamp become the previous ones; the result is undefined exactly when a warm message has a zero time step |
| Estimator.WarmUpdatesJacobian | trajcontrol/deprecated_estimator.py:83-100 | with the rates since the previous samples, a warm message moves each `J[i][k]` by `α·ΔX[k]` times row `i`'s prediction error over the denominator, keeps `J` 7×7, and moves the prediction along `ΔX` toward `ΔZ` |
| Estimator.StationaryBaseKeepsJacobian | trajcontrol/deprecated_estimator.py:95-100 | a base that has not moved leaves `J` unchanged |
| Estimator.ZeroGainKeepsJacobian | trajcontrol/deprecated_estimator.py:99-100 | with `α = 0` the callback never changes `J` |
| Estimator.PerfectPredictionKeepsJacobian | trajcontrol/deprecated_estimator.py:99-100 | if `J` already predicted the tip rate, it is kept |
| Estimator.Step | trajcontrol/deprecated_estimator.py:27-29 | handling either message keeps `J` 7×7 and all samples 7-vectors |
| Estimator.Run | trajcontrol/deprecated_estimator.py:42-116 | every state a run reaches has a 7×7 Jacobian |
| Estimator.RunWitnessed | trajcontrol/deprecated_estimator.py:83-116 | stored samples imply messages received, and a changed `J` implies one tip pose and two base poses |
| Estimator.JacobianNeedsSamples | trajcontrol/deprecated_estimator.py:83-116 | `J` leaves the prior only after at least one tip pose and two base poses |
| SensorNode.Init | trajcontrol/sensor_processing.py:45-62 | everything starts empty: no registration, entry point, raw or filtered readings, points or histories, and no prompt printed |
| SensorNode.WindowEndsWithLatest | trajcontrol/sensor_processing.py:106-113 | after an append, the window is non-empty and ends with the new reading |
| SensorNode.WindowOfShortHistory | trajcontrol/sensor_processing.py:109-112 | a history of at most 500 readings is passed whole |
| SensorNode.WindowSlides | trajcontrol/sensor_processing.py:109-112 | once 500 readings exist, each new one pushes out the oldest |
| SensorNode.AuroraCallback | trajcontrol/sensor_processing.py:96-136 | the raw reading of a known tool is always stored; its history grows by exactly that reading, and its filtered pose becomes the transformed smoothed window, only when a registration exists; nothing else changes |
| SensorNode.KeyboardCallback | trajcontrol/sensor_processing.py:140-152 | ENTER with no registration and a raw tip reading appends that reading's position to `A`; SPACE with no entry point and a filtered tip stores it as the entry point; every other case changes nothing |
| SensorNode.KeyboardAddsAtMostOnePoint | trajcontrol/sensor_processing.py:141-147 | a key press adds at most one point, and none once a registration exists |
| SensorNode.FilteredMessages | trajcontrol/sensor_processing.py:75-92 | the tip pose is published as stored; the base pose is published exactly when one exists, and differs from it only in `z` |
| SensorNode.BaseMessageOffset | trajcontrol/sensor_processing.py:90 | raising the published base pose by `DIST_NEEDLE_BASE` gives back the stored base pose |
| Bootstrap.Handle | trajcontrol/sensor_processing.py:268 | a handled event never changes the registration or the prompt flags |
| Bootstrap.GetRegistration | trajcontrol/sensor_processing.py:154-180 | in reload mode the registration becomes the loaded transform, or stays as it was when the file is missing or cannot be opened; interactively with fewer than ten points the next slot is flagged and its prompt printed only the first time; with ten points the registration is the fit of `A` to `B`; with more, the shapes mismatch and the call fails |
| Bootstrap.GetEntryPoint | trajcontrol/sensor_processing.py:182-192 | while no entry point exists, the entry-point prompt is printed only once; nothing else changes |
| Bootstrap.Iterate | trajcontrol/sensor_processing.py:267-284 | a loop pass moves to the next loop, or stays in the current one |
| Bootstrap.RunInv | trajcontrol/sensor_processing.py:261-284 | every run is defined and keeps the invariants: the gating, the point count and the prompt bookkeeping |
| Bootstrap.RunLater | trajcontrol/sensor_processing.py:267-284 | a longer run has not gone back a loop, has not replaced a stored registration or entry point, and has not retracted any prompt |
| Bootstrap.InteractiveRegistration | trajcontrol/sensor_processing.py:159-170 | interactively, `A` never has more points than `B`, and a registration is always the fit of exactly as many points as `B` has |
| Bootstrap.RegistrationFirst | trajcontrol/sensor_processing.py:104-125 | filtered poses, histories and the entry point exist only once a registration does; streaming starts only with both stored |
| Bootstrap.PromptsPrintedOnce | trajcontrol/sensor_processing.py:162-188 | each prompt is printed at most once, in increasing slot order, and a slot is flagged exactly when its prompt was printed |
| Bootstrap.NoFileKeepsWaiting | trajcontrol/sensor_processing.py:174-180 | in reload mode with a file that is never found, the program stays in the first loop, with no registration and no filtered pose |

## Left out

- The median filter of `scipy` is the `filter` parameter: a function from the window of readings to the smoothed latest reading. Its 40-sample kernel is not modelled.
- `np.linalg.eig` and `argmax` are the `eig` parameter of `FindRegistration`. `RegistrationMaximisesFit` takes as its hypothesis `MaximisesForm(n, eig(n))`: the solver returns a unit quaternion that maximises `qᵀNq` over unit quaternions. The model does not prove that a real eigen-solver returns such a vector. That the top unit eigenvector maximises the form is the Rayleigh–Ritz theorem, which is not proved here.
- Saving the registration to `registration.csv` is not modelled. Loading it is the `loaded` field of each loop pass.
- Floating point is modelled as exact `real` arithmetic. Signed zeros in the prior Jacobian are plain zero.
- The estimator's Jacobian publisher is not modelled: it is an image message on a timer, with no logic. The same goes for the entry-point publisher, which sends the stored entry point as it is, and for the timers, clocks, logging, `time.sleep` and `rclpy.ok()`.
- `listen_keyboard` is written in the getters but never read, so it has no effect and is left out.
- Estimator.RobotCallback: a warm message with a zero time step is `None` here. The source divides by zero, and numpy gives infinities and NaNs that exact reals cannot represent.
- Estimator.UpdateSecant: states the secant property multiplied by the denominator rather than as the quotient `α·‖ΔX‖²/(‖ΔX‖²+1e-9)`.
- Bootstrap.GetRegistration: a registration file that exists but does not parse makes `loadtxt` raise `ValueError`, which `except IOError` does not catch, so the source's `main` ends. A file that parses to other than seven values gives a registration that `pose_transform` then fails on. Neither outcome is modelled: a load either yields a pose or nothing.
- Bootstrap.GetRegistration: with more points than stage points the source raises an exception from numpy on mismatched shapes. Here that is `None`. `RunInv` proves the case is never reached in a run for a fixed registration mode. In the source, ENTER adds points in reload mode too. So a mode switched to interactive after more than ten presses does reach the numpy error, and that switch is not modelled (see the next line).
- Parameters are read once per run. The source re-reads `alpha` from the ROS parameter server on every robot message (`deprecated_estimator.py` line 99), and `registration` on every pass of the registration loop (`sensor_processing.py` line 156). Here `alpha` is one argument of `Estimator.Run`, and the registration mode is `Config.interactive`, both fixed for a whole run. Changing a parameter while the node runs is not modelled.
- The estimator's clock reading at construction is the `now` parameter of `Run`.
- `save_file.py` (CSV logging of topics) and `virtual_robot.py` (a simulated robot replaying recorded data through an action server) are not part of this model.

=== FILE: bootstrap.dfy ===
/** The start-up sequence of the sensor-processing node (`main`): a loop that
    handles one message at a time until a registration exists, asking for
    each registration point in turn or loading a stored transform; a second
    loop that does the same until an entry point exists; then plain message
    handling for ever. A run is a sequence of inputs, one per loop pass. */
module Bootstrap {
  import opened Wrappers
  import opened Quaternion
  import opened Frames
  import Registration
  import opened SensorNode

  /** How the node was started. `interactive` is the `registration`
      parameter being 1; `eig` picks the quaternion from Horn's matrix and
      `filter` smooths a window of readings. */
  datatype Config = Config(interactive: bool, eig: seq<seq<real>> -> Quat, filter: Filter)

  /** What one `spin_once` delivers: a tracker transform, a key press, or
      nothing that changes the node (a timer only publishes). */
  datatype Event = Tracker(name: string, reading: Pose) | KeyPress(code: int) | Idle

  /** One loop pass: the event handled, and what reading the stored
      registration file yields at that pass (`None` when the file is missing
      or cannot be opened). */
  datatype Input = Input(event: Event, loaded: Option<Pose>)

  /** A getter's effect: the new node and the prompt slot it printed, if any. */
  datatype Reply = Reply(node: Node, prompt: Option<nat>)

  /** The callback that handles an event. */
  function Handle(n: Node, e: Event, filter: Filter): (r: Node)
    ensures r.registration == n.registration && r.requested == n.requested
    ensures e.Idle? ==> r == n
    ensures e.Tracker? ==> r == AuroraCallback(n, e.name, e.reading, filter)
    ensures e.KeyPress? ==> r == KeyboardCallback(n, e.code)
  {
    match e
    case Tracker(name, reading) => AuroraCallback(n, name, reading, filter)
    case KeyPress(code) => KeyboardCallback(n, code)
    case Idle => n
  }

  /** `get_registration`. Interactively, while fewer points than stage
      points are stored, the prompt for the next point is printed once; once
      as many are stored, the registration is computed from them. With more
      points than stage points the shapes no longer match and the
      computation fails (`None`). Otherwise the stored transform is loaded,
      and a failed load leaves the registration as it was. */
  function GetRegistration(n: Node, c: Config, loaded: Option<Pose>): (r: Option<Reply>)
    requires Valid(n)
    ensures r.None? <==> c.interactive && |n.points| > |StagePoints|
    ensures r.Some? ==> Valid(r.value.node)
    ensures r.Some? ==> r.value.node == n.(registration := r.value.node.registration,
                                            requested := r.value.node.requested)
    ensures !c.interactive ==> r == Some(Reply(n.(registration := if loaded.Some? then loaded else n.registration), None))
    ensures c.interactive && |n.points| < |StagePoints| ==>
              r.Some? && r.value.node.registration == n.registration
              && r.value.node.requested == n.requested[|n.points| := true]
              && (r.value.prompt.Some? <==> !n.requested[|n.points|])
              && (r.value.prompt.Some? ==> r.value.prompt.value == |n.points|)
    ensures c.interactive && |n.points| == |StagePoints| ==>
              r == Some(Reply(n.(registration := Some(Registration.FindRegistration(n.points, StagePoints, c.eig))), None))
  {
    if c.interactive then
      var k := |n.points|;
      if k < |StagePoints| then
        if n.requested[k] then Some(Reply(n, None))
        else Some(Reply(n.(requested := n.requested[k := true]), Some(k)))
      else if k == |StagePoints| then
        Some(Reply(n.(registration := Some(Registration.FindRegistration(n.points, StagePoints, c.eig))), None))
      else
        None
    else
      Some(Reply(n.(registration := if loaded.Some? then loaded else n.registration), None))
  }

  /** `get_entry_point`: while no entry point exists, the entry-point prompt
      is printed once. */
  function GetEntryPoint(n: Node): (r: Reply)
    requires Valid(n)
    ensures Valid(r.node)
    ensures r.node == n.(requested := r.node.requested)
    ensures r.prompt.Some? <==> n.entryPoint.None? && !n.requested[EntrySlot]
    ensures r.prompt.Some? ==> r.prompt.value == EntrySlot && r.node.requested == n.requested[EntrySlot := true]
    ensures r.prompt.None? ==> r.node == n
  {
    if n.entryPoint.None? && !n.requested[EntrySlot] then
      Reply(n.(requested := n.requested[EntrySlot := true]), Some(EntrySlot))
    else
      Reply(n, None)
  }

  // ---------------------------------------------------------------------------
  // The main loops

  /** Which loop of `main` is running. */
  datatype Phase = Registering | Entering | Streaming

  function Rank(p: Phase): nat {
    match p
    case Registering => 0
    case Entering => 1
    case Streaming => 2
  }

  /** The running program: its loop, the node, and the prompt slots printed
      so far, in order. */
  datatype System = System(phase: Phase, node: Node, prompts: seq<nat>)

  function Start(): (s: System)
    ensures s.phase == Registering && s.node == Init() && s.prompts == []
  {
    System(Registering, Init(), [])
  }

  function Printed(p: Option<nat>): seq<nat> {
    if p.Some? then [p.value] else []
  }

  /** One pass of the current loop: the event is handled, then the loop
      ends if the value it waits for exists, and otherwise runs its getter.
      `None` when the getter fails. */
  function Iterate(s: System, c: Config, i: Input): (r: Option<System>)
    requires Valid(s.node)
    ensures r.Some? ==> Valid(r.value.node)
    ensures r.Some? ==> Rank(s.phase) <= Rank(r.value.phase) <= Rank(s.phase) + 1
    ensures r.Some? && r.value.phase != s.phase ==> r.value.node == Handle(s.node, i.event, c.filter)
  {
    var n := Handle(s.node, i.event, c.filter);
    match s.phase
    case Registering =>
      if n.registration.Some? then Some(System(Entering, n, s.prompts))
      else
        (match GetRegistration(n, c, i.loaded)
         case None => None
         case Some(reply) => Some(System(Registering, reply.node, s.prompts + Printed(reply.prompt))))
    case Entering =>
      if n.entryPoint.Some? then Some(System(Streaming, n, s.prompts))
      else
        var reply := GetEntryPoint(n);
        Some(System(Entering, reply.node, s.prompts + Printed(reply.prompt)))
    case Streaming =>
      Some(s.(node := n))
  }

  /** The program after a sequence of loop passes; `None` once a pass fails. */
  function Run(c: Config, inputs: seq<Input>): (r: Option<System>)
    ensures r.Some? ==> Valid(r.value.node)
    decreases |inputs|
  {
    if inputs == [] then Some(Start())
    else
      match Run(c, inputs[..|inputs| - 1])
      case None => None
      case Some(s) => Iterate(s, c, inputs[|inputs| - 1])
  }

  // ---------------------------------------------------------------------------
  // Invariants of a run

  /** Filtered poses, histories and the entry point exist only once a
      registration does. */
  predicate Gated(n: Node) {
    (n.tip.Some? || n.base.Some? || n.tipHistory != [] || n.baseHistory != [] || n.entryPoint.Some?)
      ==> n.registration.Some?
  }

  /** Interactively, the registration points never outnumber the stage
      points; the registration exists exactly when all of them are stored,
      and then it is the fit of the stored points to the stage points. */
  predicate Collected(n: Node, c: Config) {
    |n.points| <= |StagePoints|
    && (n.registration.None? ==> |n.points| < |StagePoints|)
    && (n.registration.Some? ==>
          |n.points| == |StagePoints|
          && n.registration.value == Registration.FindRegistration(n.points, StagePoints, c.eig))
  }

  /** Each prompt is printed at most once, in increasing slot order, and a
      slot is flagged exactly when its prompt has been printed. */
  predicate PromptsOnce(s: System, bound: nat) {
    Valid(s.node)
    && (forall i, j :: 0 <= i < j < |s.prompts| ==> s.prompts[i] < s.prompts[j])
    && (forall i :: 0 <= i < |s.prompts| ==> s.prompts[i] <= bound && s.prompts[i] < PromptSlots)
    && (forall k :: 0 <= k < PromptSlots ==> (s.node.requested[k] <==> k in s.prompts))
  }

  /** The highest slot the program may have prompted for: the current point
      interactively, the entry-point slot otherwise. */
  function PromptBound(s: System, c: Config): nat {
    if c.interactive then |s.node.points| else EntrySlot
  }

  predicate Inv(s: System, c: Config) {
    Valid(s.node)
    && (s.phase != Registering ==> s.node.registration.Some?)
    && (s.phase == Streaming ==> s.node.entryPoint.Some?)
    && Gated(s.node)
    && (c.interactive ==> Collected(s.node, c))
    && PromptsOnce(s, PromptBound(s, c))
  }

  lemma StartInv(c: Config)
    ensures Inv(Start(), c)
  {
  }

  /** Handling an event keeps the gating, and interactively adds at most one
      point while no registration exists. */
  lemma {:induction false} HandleKeeps(n: Node, e: Event, c: Config)
    requires Valid(n) && Gated(n)
    ensures Gated(Handle(n, e, c.filter))
    ensures var m := Handle(n, e, c.filter);
            |m.points| <= |n.points| + 1
            && (n.registration.Some? ==> m.points == n.points)
            && |n.points| <= |m.points|
            && m.registration == n.registration && m.requested == n.requested
  {
    match e
    case Tracker(name, reading) =>
    case KeyPress(code) =>
      KeyboardAddsAtMostOnePoint(n, code);
    case Idle =>
  }

  /** A pass never fails from a state satisfying the invariant, and keeps
      it. */
  lemma {:induction false} IterateKeepsInv(s: System, c: Config, i: Input)
    requires Inv(s, c)
    ensures Iterate(s, c, i).Some? && Inv(Iterate(s, c, i).value, c)
  {
    HandleKeeps(s.node, i.event, c);
    match s.phase
    case Registering => RegisteringKeepsInv(s, c, i);
    case Entering => EnteringKeepsInv(s, c, i);
    case Streaming =>
  }

  /** A pass of the registration loop: interactively the handled event has
      added at most one point to fewer than all, so the getter either prompts
      for the next one or fits all of them. */
  lemma {:induction false} RegisteringKeepsInv(s: System, c: Config, i: Input)
    requires Inv(s, c) && s.phase == Registering
    ensures Iterate(s, c, i).Some? && Inv(Iterate(s, c, i).value, c)
  {
    var n := Handle(s.node, i.event, c.filter);
    HandleKeeps(s.node, i.event, c);
    if n.registration.None? {
      var reply := GetRegistration(n, c, i.loaded);
      assert reply.Some?;
      var t := Iterate(s, c, i).value;
      assert t.node == reply.value.node;
      assert t.prompts == s.prompts + Printed(reply.value.prompt);
      if reply.value.prompt.Some? {
        var k := reply.value.prompt.value;
        assert c.interactive && k == |n.points| && !n.requested[k];
        assert k !in s.prompts;
        assert forall p :: 0 <= p < |s.prompts| ==> s.prompts[p] < k;
      }
    }
  }

  /** A pass of the entry-point loop: the entry-point prompt comes after
      every earlier one. */
  lemma {:induction false} EnteringKeepsInv(s: System, c: Config, i: Input)
    requires Inv(s, c) && s.phase == Entering
    ensures Iterate(s, c, i).Some? && Inv(Iterate(s, c, i).value, c)
  {
    var n := Handle(s.node, i.event, c.filter);
    HandleKeeps(s.node, i.event, c);
    if n.entryPoint.None? {
      var reply := GetEntryPoint(n);
      if reply.prompt.Some? {
        assert EntrySlot !in s.prompts;
        assert forall p :: 0 <= p < |s.prompts| ==> s.prompts[p] < EntrySlot;
      }
    }
  }

  /** Every run is defined — neither getter ever fails — and satisfies the
      invariant. */
  lemma {:induction false} RunInv(c: Config, inputs: seq<Input>)
    ensures Run(c, inputs).Some? && Inv(Run(c, inputs).value, c)
    decreases |inputs|
  {
    if inputs == [] {
      StartInv(c);
    } else {
      RunInv(c, inputs[..|inputs| - 1]);
      IterateKeepsInv(Run(c, inputs[..|inputs| - 1]).value, c, inputs[|inputs| - 1]);
    }
  }

  /** The loops only move forward; a registration or entry point, once
      stored, is never replaced; printed prompts are never retracted. */
  predicate Later(s: System, t: System) {
    Rank(s.phase) <= Rank(t.phase)
    && (s.node.registration.Some? ==> t.node.registration == s.node.registration)
    && (s.node.entryPoint.Some? ==> t.node.entryPoint == s.node.entryPoint)
    && s.prompts <= t.prompts
  }

  lemma {:induction false} IterateLater(s: System, c: Config, i: Input)
    requires Inv(s, c)
    ensures Iterate(s, c, i).Some? && Later(s, Iterate(s, c, i).value)
  {
    IterateKeepsInv(s, c, i);
    var n := Handle(s.node, i.event, c.filter);
    assert s.node.entryPoint.Some? ==> n.entryPoint == s.node.entryPoint;
  }

  /** A run extended by more passes is `Later` than its prefix. */
  lemma {:induction false} RunLater(c: Config, inputs: seq<Input>, m: nat)
    requires m <= |inputs|
    ensures Run(c, inputs[..m]).Some? && Run(c, inputs).Some?
    ensures Later(Run(c, inputs[..m]).value, Run(c, inputs).value)
    decreases |inputs|
  {
    RunInv(c, inputs[..m]);
    RunInv(c, inputs);
    if m < |inputs| {
      var front := inputs[..|inputs| - 1];
      assert front[..m] == inputs[..m];
      RunLater(c, front, m);
      RunInv(c, front);
      IterateLater(Run(c, front).value, c, inputs[|inputs| - 1]);
    } else {
      assert inputs[..m] == inputs;
    }
  }

  /** Interactively, a registration in any run is the fit of exactly as many
      stored tracker points as there are stage points. */
  lemma {:induction false} InteractiveRegistration(c: Config, inputs: seq<Input>)
    requires c.interactive
    ensures var s := Run(c, inputs);
            s.Some? && |s.value.node.points| <= |StagePoints|
            && (s.value.node.registration.Some? ==>
                  |s.value.node.points| == |StagePoints|
                  && s.value.node.registration.value
                     == Registration.FindRegistration(s.value.node.points, StagePoints, c.eig))
  {
    RunInv(c, inputs);
  }

  /** Filtered poses and the entry point only ever exist once a registration
      does, and the streaming loop is reached only with both stored. */
  lemma {:induction false} RegistrationFirst(c: Config, inputs: seq<Input>)
    ensures Run(c, inputs).Some?
    ensures var s := Run(c, inputs).value;
            Gated(s.node)
            && (s.phase != Registering ==> s.node.registration.Some?)
            && (s.phase == Streaming ==> s.node.entryPoint.Some?)
  {
    RunInv(c, inputs);
  }

  /** Every prompt is printed at most once, and the slots come in increasing
      order: registration points first, the entry point last. */
  lemma {:induction false} PromptsPrintedOnce(c: Config, inputs: seq<Input>)
    ensures Run(c, inputs).Some?
    ensures var s := Run(c, inputs).value;
            (forall i, j :: 0 <= i < j < |s.prompts| ==> s.prompts[i] < s.prompts[j])
            && (forall k :: 0 <= k < PromptSlots ==> (s.node.requested[k] <==> k in s.prompts))
  {
    RunInv(c, inputs);
  }

  /** When the stored transform never loads, the program waits in the first
      loop for ever, without a registration or any filtered pose. */
  lemma {:induction false} NoFileKeepsWaiting(c: Config, inputs: seq<Input>)
    requires !c.interactive
    requires forall k :: 0 <= k < |inputs| ==> inputs[k].loaded.None?
    ensures var s := Run(c, inputs);
            s.Some? && s.value.phase == Registering && s.value.node.registration.None?
            && s.value.node.tip.None? && s.value.node.base.None? && s.value.prompts == []
    decreases |inputs|
  {
    RunInv(c, inputs);
    if inputs != [] {
      var front := inputs[..|inputs| - 1];
      NoFileKeepsWaiting(c, front);
    }
  }
}

=== FILE: estimator.dfy ===
/** The Jacobian estimator node (`deprecated_estimator.py`): it keeps a 7×7
    Jacobian `J` from needle-base motion to needle-tip motion, seeded with
    values from earlier experiments and corrected on every robot message by a
    memory-1 secant (Broyden) update. The tip pose arrives on its own topic and
    is only stored. */
module Estimator {
  import opened Wrappers
  import opened Frames
  import opened Linalg

  /** Size of a pose vector `[x, y, z, qw, qx, qy, qz]`. */
  const PoseDim: nat := 7

  /** The `1e-9` added to `ΔXᵀΔX` before dividing. */
  const Regulariser: real := 0.000000001

  /** The initial Jacobian, estimated from previous experiments (signed zeros
      such as `-0.0000` are plain zero here). */
  const Prior: Matrix := [
    [ 0.9906, -0.1395, -0.5254,  0.0044,  0.0042,  0.0,     0.0001],
    [ 0.0588,  1.7334, -0.1336,  0.0020,  0.0020,  0.0002, -0.0002],
    [-0.3769,  0.1906,  0.2970, -0.0016, -0.0015,  0.0004, -0.0004],
    [ 0.0,    -0.0003,  0.0017,  0.0,     0.0,     0.0,     0.0   ],
    [ 0.0004, -0.0005,  0.0015,  0.0,     0.0,     0.0,     0.0   ],
    [ 0.0058, -0.0028, -0.0015,  0.0,     0.0,     0.0,     0.0   ],
    [-0.0059,  0.0028,  0.0015,  0.0,     0.0,     0.0,     0.0   ]]

  /** A ROS time stamp: whole seconds and nanoseconds. */
  datatype Stamp = Stamp(sec: int, nanosec: int)

  /** The instant of a stamp in nanoseconds, `sec·1e9 + nanosec`. */
  function Nanos(t: Stamp): real {
    t.sec as real * 1000000000.0 + t.nanosec as real
  }

  /** Seconds elapsed from `before` to `now`, computed as the source does:
      the difference of the two nanosecond counts times `1e-9`. */
  function DeltaT(now: Stamp, before: Stamp): (r: real)
    ensures r == 0.0 <==> Nanos(now) == Nanos(before)
    ensures r > 0.0 <==> Nanos(now) > Nanos(before)
  {
    (Nanos(now) - Nanos(before)) * 0.000000001
  }

  /** Elapsed times add up along a chain of three stamps. */
  lemma DeltaTAdditive(a: Stamp, b: Stamp, c: Stamp)
    ensures DeltaT(c, a) == DeltaT(c, b) + DeltaT(b, a)
  {
  }

  /** Two stamps with the same nanosecond field are their whole-second
      difference apart. */
  lemma DeltaTWholeSeconds(now: Stamp, before: Stamp)
    requires now.nanosec == before.nanosec
    ensures DeltaT(now, before) == (now.sec - before.sec) as real
  {
  }

  /** A pose as the estimator's column vector `[x, y, z, qw, qx, qy, qz]`. */
  function PoseVector(p: Pose): (r: Vector)
    ensures |r| == PoseDim
  {
    [p.pos.x, p.pos.y, p.pos.z, p.rot.w, p.rot.x, p.rot.y, p.rot.z]
  }

  /** Distinct poses give distinct vectors: the vector loses nothing. */
  lemma PoseVectorInjective(p: Pose, q: Pose)
    ensures PoseVector(p) == PoseVector(q) <==> p == q
  {
    if PoseVector(p) == PoseVector(q) {
      assert PoseVector(p)[0] == PoseVector(q)[0] && PoseVector(p)[1] == PoseVector(q)[1];
      assert PoseVector(p)[2] == PoseVector(q)[2] && PoseVector(p)[3] == PoseVector(q)[3];
      assert PoseVector(p)[4] == PoseVector(q)[4] && PoseVector(p)[5] == PoseVector(q)[5];
      assert PoseVector(p)[6] == PoseVector(q)[6];
    }
  }

  // ---------------------------------------------------------------------------
  // The secant update

  /** The denominator `ΔXᵀΔX + 1e-9` of the update. It is always positive,
      so the division is defined whatever `ΔX` is. */
  function Denominator(dx: Vector): (d: real)
    ensures d > 0.0
  {
    DotSelfNonNegative(dx);
    Dot(dx, dx) + Regulariser
  }

  /** The correction direction `(ΔZ − J·ΔX) / (ΔXᵀΔX + 1e-9)`. */
  function Gain(j: Matrix, dx: Vector, dz: Vector): (g: Vector)
    requires IsMatrix(j, |dz|, |dx|)
    ensures |g| == |dz|
  {
    VDiv(VSub(dz, MatVec(j, dx)), Denominator(dx))
  }

  /** Each gain entry times the denominator is the prediction error
      `ΔZ[i] − (J·ΔX)[i]`. */
  lemma {:induction false} GainScalesError(j: Matrix, dx: Vector, dz: Vector, i: nat)
    requires IsMatrix(j, |dz|, |dx|) && i < |dz|
    ensures Gain(j, dx, dz)[i] * Denominator(dx) == dz[i] - MatVec(j, dx)[i]
  {
  }

  /** `J + alpha·outer(gain, ΔX)`. */
  function JacobianUpdate(j: Matrix, dx: Vector, dz: Vector, alpha: real): (r: Matrix)
    requires IsMatrix(j, |dz|, |dx|)
    ensures IsMatrix(r, |dz|, |dx|)
  {
    MAddScaled(j, alpha, Outer(Gain(j, dx, dz), dx))
  }

  /** Row `i` of the updated Jacobian acts on any direction `v` as the old row
      plus `alpha·gain[i]` times the component of `v` along `ΔX`. */
  lemma {:induction false} UpdateActsAlongStep(j: Matrix, dx: Vector, dz: Vector, alpha: real, v: Vector, i: nat)
    requires IsMatrix(j, |dz|, |dx|) && |v| == |dx| && i < |dz|
    ensures MatVec(JacobianUpdate(j, dx, dz, alpha), v)[i]
         == MatVec(j, v)[i] + alpha * Gain(j, dx, dz)[i] * Dot(dx, v)
  {
    RankOneApply(j, alpha, Gain(j, dx, dz), dx, v, i);
  }

  /** Memory-1 property: directions orthogonal to `ΔX` are mapped exactly as
      before the update. */
  lemma {:induction false} UpdateKeepsOrthogonal(j: Matrix, dx: Vector, dz: Vector, alpha: real, v: Vector)
    requires IsMatrix(j, |dz|, |dx|) && |v| == |dx| && Dot(dx, v) == 0.0
    ensures MatVec(JacobianUpdate(j, dx, dz, alpha), v) == MatVec(j, v)
  {
    forall i | 0 <= i < |dz|
      ensures MatVec(JacobianUpdate(j, dx, dz, alpha), v)[i] == MatVec(j, v)[i]
    {
      UpdateActsAlongStep(j, dx, dz, alpha, v, i);
    }
  }

  /** Entry `[i][k]` of `next` is `j[i][k]` moved by `alpha·ΔX[k]` times the
      prediction error of row `i` over the denominator (multiplied out). */
  predicate EntryCorrected(next: Matrix, j: Matrix, dx: Vector, dz: Vector, alpha: real, i: nat, k: nat)
    requires IsMatrix(next, |dz|, |dx|) && IsMatrix(j, |dz|, |dx|) && i < |dz| && k < |dx|
  {
    next[i][k] * Denominator(dx) == j[i][k] * Denominator(dx) + alpha * dx[k] * (dz[i] - MatVec(j, dx)[i])
  }

  /** Row `i` of `next` predicts along `ΔX` what `j` did, moved toward `ΔZ[i]`
      by the fraction `alpha·|ΔX|²` of the error over the denominator
      (multiplied out). */
  predicate RowCorrected(next: Matrix, j: Matrix, dx: Vector, dz: Vector, alpha: real, i: nat)
    requires IsMatrix(next, |dz|, |dx|) && IsMatrix(j, |dz|, |dx|) && i < |dz|
  {
    MatVec(next, dx)[i] * Denominator(dx)
    == MatVec(j, dx)[i] * Denominator(dx) + alpha * Dot(dx, dx) * (dz[i] - MatVec(j, dx)[i])
  }

  /** Scaled by the denominator, the update adds to `(J·v)[i]` the fraction
      `alpha·(ΔXᵀv)` of the prediction error `ΔZ[i] − (J·ΔX)[i]`. */
  lemma {:induction false} UpdateCorrects(j: Matrix, dx: Vector, dz: Vector, alpha: real, v: Vector, i: nat)
    requires IsMatrix(j, |dz|, |dx|) && |v| == |dx| && i < |dz|
    ensures MatVec(JacobianUpdate(j, dx, dz, alpha), v)[i] * Denominator(dx)
         == MatVec(j, v)[i] * Denominator(dx) + alpha * Dot(dx, v) * (dz[i] - MatVec(j, dx)[i])
  {
    assert JacobianUpdate(j, dx, dz, alpha) == MAddScaled(j, alpha, Outer(Gain(j, dx, dz), dx));
    GainScalesError(j, dx, dz, i);
    RankOneApplyScaled(j, alpha, Gain(j, dx, dz), dx, v, i, Denominator(dx), dz[i] - MatVec(j, dx)[i]);
  }

  /** Secant property: along `ΔX` the updated Jacobian moves its prediction
      toward the observed `ΔZ` by the fraction `alpha·|ΔX|²/(|ΔX|² + 1e-9)`
      of the prediction error, stated without the division. */
  lemma {:induction false} UpdateSecant(j: Matrix, dx: Vector, dz: Vector, alpha: real, i: nat)
    requires IsMatrix(j, |dz|, |dx|) && i < |dz|
    ensures RowCorrected(JacobianUpdate(j, dx, dz, alpha), j, dx, dz, alpha, i)
  {
    UpdateCorrects(j, dx, dz, alpha, dx, i);
  }

  /** Every entry of the update is corrected along `ΔX` by the scaled error. */
  lemma UpdateEntry(j: Matrix, dx: Vector, dz: Vector, alpha: real, i: nat, k: nat)
    requires IsMatrix(j, |dz|, |dx|) && i < |dz| && k < |dx|
    ensures EntryCorrected(JacobianUpdate(j, dx, dz, alpha), j, dx, dz, alpha, i, k)
  {
    var g := Gain(j, dx, dz);
    GainScalesError(j, dx, dz, i);
    RankOneEntries(j, alpha, g, dx, i);
    assert JacobianUpdate(j, dx, dz, alpha)[i][k] == j[i][k] + alpha * g[i] * dx[k];
    ScaleStep(JacobianUpdate(j, dx, dz, alpha)[i][k], j[i][k], alpha, g[i], dx[k],
              Denominator(dx), dz[i] - MatVec(j, dx)[i]);
  }

  /** A quotient by a positive number is zero only for a zero numerator. */
  lemma ZeroNumerator(g: real, d: real)
    requires g * d == 0.0 && d > 0.0
    ensures g == 0.0
  {
  }

  /** The update changes nothing when `alpha` is zero, when the base did not
      move (`ΔX = 0`), or when the Jacobian already predicted `ΔZ` exactly. */
  lemma {:induction false} UpdateUnchanged(j: Matrix, dx: Vector, dz: Vector, alpha: real)
    requires IsMatrix(j, |dz|, |dx|)
    requires alpha == 0.0 || IsZero(dx) || dz == MatVec(j, dx)
    ensures JacobianUpdate(j, dx, dz, alpha) == j
  {
    var r := JacobianUpdate(j, dx, dz, alpha);
    var g := Gain(j, dx, dz);
    forall i | 0 <= i < |dz|
      ensures r[i] == j[i]
    {
      if dz == MatVec(j, dx) {
        GainScalesError(j, dx, dz, i);
        ZeroNumerator(g[i], Denominator(dx));
      }
      var c := alpha * g[i];
      assert c == 0.0 || IsZero(dx);
      RankOneEntries(j, alpha, g, dx, i);
      forall k | 0 <= k < |dx|
        ensures r[i][k] == j[i][k]
      {
        assert c * dx[k] == 0.0;
      }
    }
  }

  // ---------------------------------------------------------------------------
  // Node state and callbacks

  /** The node's stored values; `None` stands for the source's empty arrays. */
  datatype State = State(
    jac: Matrix,            // J
    tip: Option<Vector>,    // Z, the latest filtered tip pose
    base: Option<Vector>,   // X, the base pose of the latest warm update
    basePrev: Option<Vector>, // Xant
    tipPrev: Option<Vector>,  // Zant
    baseTime: Stamp,        // TXant
    tipTime: Stamp)         // TZant

  /** What every state of the node satisfies: a 7×7 Jacobian, 7-vectors, and
      a previous tip sample only once a current one exists. */
  predicate Valid(s: State) {
    IsMatrix(s.jac, PoseDim, PoseDim)
    && (s.tip.Some? ==> |s.tip.value| == PoseDim)
    && (s.base.Some? ==> |s.base.value| == PoseDim)
    && (s.basePrev.Some? ==> |s.basePrev.value| == PoseDim)
    && (s.tipPrev.Some? ==> |s.tipPrev.value| == PoseDim && s.tip.Some?)
  }

  /** The constructor: prior Jacobian, no samples, both previous instants set
      to the clock reading `now`. */
  function Init(now: Stamp): (s: State)
    ensures Valid(s)
    ensures s.jac == Prior && s.tip.None? && s.base.None? && s.basePrev.None? && s.tipPrev.None?
    ensures s.baseTime == now && s.tipTime == now
  {
    State(Prior, None, None, None, None, now, now)
  }

  /** Both previous samples are present: the robot callback updates `J`. */
  predicate Warm(s: State) {
    s.basePrev.Some? && s.tipPrev.Some?
  }

  /** `sensor_callback`: store the tip pose; nothing else changes. */
  function SensorCallback(s: State, p: Pose): (r: State)
    requires Valid(s)
    ensures Valid(r)
    ensures r.tip == Some(PoseVector(p))
    ensures r.jac == s.jac && r.base == s.base && r.basePrev == s.basePrev
    ensures r.tipPrev == s.tipPrev && r.baseTime == s.baseTime && r.tipTime == s.tipTime
  {
    s.(tip := Some(PoseVector(p)))
  }

  /** The rates `ΔX/Δt` and `ΔZ/Δt` a warm robot message produces: times
      the time step, each carries the previous sample onto the current one.
      The tip's time step is taken equal to the base's. */
  function BaseRate(s: State, p: Pose, stamp: Stamp): (r: Vector)
    requires Valid(s) && Warm(s) && DeltaT(stamp, s.baseTime) != 0.0
    ensures |r| == PoseDim
    ensures forall i :: 0 <= i < PoseDim ==>
              r[i] * DeltaT(stamp, s.baseTime) + s.basePrev.value[i] == PoseVector(p)[i]
  {
    VDiv(VSub(PoseVector(p), s.basePrev.value), DeltaT(stamp, s.baseTime))
  }

  function TipRate(s: State, stamp: Stamp): (r: Vector)
    requires Valid(s) && Warm(s) && DeltaT(stamp, s.baseTime) != 0.0
    ensures |r| == PoseDim
    ensures forall i :: 0 <= i < PoseDim ==>
              r[i] * DeltaT(stamp, s.baseTime) + s.tipPrev.value[i] == s.tip.value[i]
  {
    VDiv(VSub(s.tip.value, s.tipPrev.value), DeltaT(stamp, s.baseTime))
  }

  /** `robot_callback` with base pose `p` stamped `stamp`. In a warm state it
      applies the secant update with the rates since the previous sample and
      then makes the current samples the previous ones. In a cold state it
      records the base pose and time, and the tip pose too when one exists
      (its time is the previous base time). A warm message with the same
      stamp as the previous one divides by a zero time step, which has no
      real value: the result is `None`. */
  function RobotCallback(s: State, p: Pose, stamp: Stamp, alpha: real): (r: Option<State>)
    requires Valid(s)
    ensures r.None? <==> Warm(s) && DeltaT(stamp, s.baseTime) == 0.0
    ensures r.Some? ==> Valid(r.value)
    ensures r.Some? ==> r.value.basePrev == Some(PoseVector(p)) && r.value.baseTime == stamp
    ensures r.Some? ==> r.value.tip == s.tip
    ensures !Warm(s) ==> r.Some? && r.value.jac == s.jac && r.value.base == s.base
    ensures !Warm(s) ==> r.Some? && r.value.tipPrev == (if s.tip.Some? then s.tip else s.tipPrev)
    ensures !Warm(s) ==> r.Some? && r.value.tipTime == (if s.tip.Some? then s.baseTime else s.tipTime)
    ensures Warm(s) && r.Some? ==> r.value.base == r.value.basePrev && r.value.tipPrev == s.tip
    ensures Warm(s) && r.Some? ==> r.value.tipTime == stamp
  {
    if Warm(s) then
      var dt := DeltaT(stamp, s.baseTime);
      if dt == 0.0 then None
      else
        var x := PoseVector(p);
        var j := JacobianUpdate(s.jac, BaseRate(s, p, stamp), TipRate(s, stamp), alpha);
        Some(State(j, s.tip, Some(x), Some(x), s.tip, stamp, stamp))
    else
      var s1 := if s.tip.Some? then s.(tipPrev := s.tip, tipTime := s.baseTime) else s;
      Some(s1.(basePrev := Some(PoseVector(p)), baseTime := stamp))
  }

  /** A warm robot message corrects entry `J[i][k]` by `alpha·ΔX[k]` times
      the error of row `i` over the denominator, and so moves row `i` of the
      prediction along `ΔX` toward the observed `ΔZ`. */
  lemma WarmUpdatesJacobian(s: State, p: Pose, stamp: Stamp, alpha: real, i: nat, k: nat)
    requires Valid(s) && Warm(s) && DeltaT(stamp, s.baseTime) != 0.0
    requires i < PoseDim && k < PoseDim
    ensures RobotCallback(s, p, stamp, alpha).Some?
    ensures var r := RobotCallback(s, p, stamp, alpha).value;
            IsMatrix(r.jac, PoseDim, PoseDim)
            && EntryCorrected(r.jac, s.jac, BaseRate(s, p, stamp), TipRate(s, stamp), alpha, i, k)
            && RowCorrected(r.jac, s.jac, BaseRate(s, p, stamp), TipRate(s, stamp), alpha, i)
  {
    var dx, dz := BaseRate(s, p, stamp), TipRate(s, stamp);
    assert RobotCallback(s, p, stamp, alpha).value.jac == JacobianUpdate(s.jac, dx, dz, alpha);
    UpdateEntry(s.jac, dx, dz, alpha, i, k);
    UpdateSecant(s.jac, dx, dz, alpha, i);
  }

  /** If the base has not moved since its previous sample, `J` is kept. */
  lemma StationaryBaseKeepsJacobian(s: State, p: Pose, stamp: Stamp, alpha: real)
    requires Valid(s) && Warm(s) && DeltaT(stamp, s.baseTime) != 0.0
    requires PoseVector(p) == s.basePrev.value
    ensures RobotCallback(s, p, stamp, alpha).Some?
    ensures RobotCallback(s, p, stamp, alpha).value.jac == s.jac
  {
    var dx := BaseRate(s, p, stamp);
    assert IsZero(dx) by {
      forall i | 0 <= i < |dx|
        ensures dx[i] == 0.0
      {
        assert dx[i] * DeltaT(stamp, s.baseTime) == 0.0;
      }
    }
    UpdateUnchanged(s.jac, dx, TipRate(s, stamp), alpha);
  }

  /** With `alpha = 0` the robot callback never changes `J`. */
  lemma ZeroGainKeepsJacobian(s: State, p: Pose, stamp: Stamp)
    requires Valid(s)
    ensures var r := RobotCallback(s, p, stamp, 0.0);
            r.Some? ==> r.value.jac == s.jac
  {
    if Warm(s) && DeltaT(stamp, s.baseTime) != 0.0 {
      UpdateUnchanged(s.jac, BaseRate(s, p, stamp), TipRate(s, stamp), 0.0);
    }
  }

  /** If `J` already predicted the tip motion from the base motion, the robot
      callback keeps it. */
  lemma PerfectPredictionKeepsJacobian(s: State, p: Pose, stamp: Stamp, alpha: real)
    requires Valid(s) && Warm(s) && DeltaT(stamp, s.baseTime) != 0.0
    requires TipRate(s, stamp) == MatVec(s.jac, BaseRate(s, p, stamp))
    ensures RobotCallback(s, p, stamp, alpha).Some?
    ensures RobotCallback(s, p, stamp, alpha).value.jac == s.jac
  {
    UpdateUnchanged(s.jac, BaseRate(s, p, stamp), TipRate(s, stamp), alpha);
  }

  // ---------------------------------------------------------------------------
  // Runs of the node

  /** A message delivered to the node: a tip pose or a stamped base pose. */
  datatype Event = TipPose(pose: Pose) | BasePose(pose: Pose, stamp: Stamp)

  function Step(s: State, e: Event, alpha: real): (r: Option<State>)
    requires Valid(s)
    ensures r.Some? ==> Valid(r.value)
  {
    match e
    case TipPose(p) => Some(SensorCallback(s, p))
    case BasePose(p, t) => RobotCallback(s, p, t, alpha)
  }

  /** The node after handling `events` in order from `Init(now)`; `None` once
      a warm message had a zero time step. */
  function Run(now: Stamp, events: seq<Event>, alpha: real): (r: Option<State>)
    ensures r.Some? ==> Valid(r.value)
  {
    if |events| == 0 then Some(Init(now))
    else
      match Run(now, events[..|events| - 1], alpha)
      case None => None
      case Some(s) => Step(s, events[|events| - 1], alpha)
  }

  function CountTips(events: seq<Event>): nat {
    if |events| == 0 then 0
    else CountTips(events[..|events| - 1]) + (if events[|events| - 1].TipPose? then 1 else 0)
  }

  function CountBases(events: seq<Event>): nat {
    if |events| == 0 then 0
    else CountBases(events[..|events| - 1]) + (if events[|events| - 1].BasePose? then 1 else 0)
  }

  /** What a run has seen, as far as the stored samples tell. */
  predicate Witnessed(s: State, events: seq<Event>) {
    (s.basePrev.Some? ==> CountBases(events) >= 1)
    && (s.tip.Some? ==> CountTips(events) >= 1)
    && (s.jac != Prior ==> CountBases(events) >= 2 && CountTips(events) >= 1)
  }

  lemma {:induction false} RunWitnessed(now: Stamp, events: seq<Event>, alpha: real)
    ensures Run(now, events, alpha).Some? ==> Witnessed(Run(now, events, alpha).value, events)
  {
    if |events| > 0 {
      var prefix := events[..|events| - 1];
      RunWitnessed(now, prefix, alpha);
    }
  }

  /** `J` departs from the prior only after the node has received at least
      one tip pose and two base poses. */
  lemma {:induction false} JacobianNeedsSamples(now: Stamp, events: seq<Event>, alpha: real)
    requires Run(now, events, alpha).Some?
    requires Run(now, events, alpha).value.jac != Prior
    ensures CountTips(events) >= 1 && CountBases(events) >= 2
  {
    RunWitnessed(now, events, alpha);
  }
}

=== FILE: frames.dfy ===
/** Poses and the frame change `pose_transform` applies to them. */
module Frames {
  import opened Quaternion

  /** A tracked pose, or a rigid transform between frames: the 7-vector
      `[x, y, z, qw, qx, qy, qz]` of the source with position and orientation
      split apart. As a transform, `pos` is the translation and `rot` the
      rotation. */
  datatype Pose = Pose(pos: Vec3, rot: Quat)

  /** Maps the pose `orig` into the frame reached through `tf`: orientation
      `q_tf ⊗ q_orig`, position `q_tf ⊗ (0,p) ⊗ q̄_tf + (0,t)`, of which only
      the vector part is kept. */
  function PoseTransform(orig: Pose, tf: Pose): (r: Pose)
    ensures Pure(r.pos) == QAdd(Sandwich(tf.rot, orig.pos), Pure(tf.pos))
    ensures NormSq(r.rot) == NormSq(tf.rot) * NormSq(orig.rot)
    ensures IsUnit(tf.rot) && IsUnit(orig.rot) ==> IsUnit(r.rot)
    ensures Dot(Sub(r.pos, tf.pos), Sub(r.pos, tf.pos))
         == NormSq(tf.rot) * NormSq(tf.rot) * Dot(orig.pos, orig.pos)
  {
    var pNew := QAdd(Sandwich(tf.rot, orig.pos), Pure(tf.pos));
    var qNew := Mul(tf.rot, orig.rot);
    assert VectorPart(Sandwich(tf.rot, orig.pos)) == Rotate(tf.rot, orig.pos);
    assert Sub(VectorPart(pNew), tf.pos) == Rotate(tf.rot, orig.pos);
    RotateLengthSq(tf.rot, orig.pos);
    MulNormSq(tf.rot, orig.rot);
    Pose(VectorPart(pNew), qNew)
  }

  /** The position part of a transformed pose: rotate, then translate. It does
      not depend on the orientation of `orig`. */
  lemma TransformPosition(orig: Pose, tf: Pose)
    ensures PoseTransform(orig, tf).pos == Add(Rotate(tf.rot, orig.pos), tf.pos)
  {
  }

  /** With no rotation the transform only shifts the position by the
      translation; with no translation either it is the identity. */
  lemma IdentityRotationShifts(orig: Pose, t: Vec3)
    ensures PoseTransform(orig, Pose(t, Identity)) == Pose(Add(orig.pos, t), orig.rot)
    ensures PoseTransform(orig, Pose(Zero3, Identity)) == orig
  {
    IdentityNeutral(orig.rot, orig.pos);
  }

  /** A transform with a unit rotation is rigid: it keeps the distance
      between any two positions. */
  lemma TransformKeepsDistance(a: Pose, b: Pose, tf: Pose)
    requires IsUnit(tf.rot)
    ensures var d := Sub(PoseTransform(a, tf).pos, PoseTransform(b, tf).pos);
            Dot(d, d) == Dot(Sub(a.pos, b.pos), Sub(a.pos, b.pos))
  {
    var d := Sub(PoseTransform(a, tf).pos, PoseTransform(b, tf).pos);
    TransformPosition(a, tf);
    TransformPosition(b, tf);
    assert d == Sub(Rotate(tf.rot, a.pos), Rotate(tf.rot, b.pos));
    RotateSub(tf.rot, a.pos, b.pos);
    RotateLengthSq(tf.rot, Sub(a.pos, b.pos));
  }

  /** The transform that undoes `tf` when `tf.rot` is a unit quaternion:
      rotation `q̄`, translation `−q̄ ⊗ t ⊗ q`. */
  function Inverse(tf: Pose): Pose {
    Pose(Sub(Zero3, Rotate(Conj(tf.rot), tf.pos)), Conj(tf.rot))
  }

  /** Applying a unit transform and then its inverse gives back the pose. */
  lemma InverseUndoes(orig: Pose, tf: Pose)
    requires IsUnit(tf.rot)
    ensures PoseTransform(PoseTransform(orig, tf), Inverse(tf)) == orig
  {
    var q := tf.rot;
    var mid := PoseTransform(orig, tf);
    TransformPosition(orig, tf);
    TransformPosition(mid, Inverse(tf));
    RotateAdd(Conj(q), Rotate(q, orig.pos), tf.pos);
    RotateByConj(q, orig.pos);
    assert NormSq(q) * NormSq(q) == 1.0;
    MulAssoc(Conj(q), q, orig.rot);
    ConjTimesSelf(q);
    assert Mul(Conj(q), q) == Identity;
    IdentityNeutral(orig.rot, orig.pos);
  }
}

=== FILE: linalg.dfy ===
/** Dense real vectors and matrices as sequences, with the few numpy
    operations the Jacobian estimator applies to its 7-vectors and its
    7×7 Jacobian: difference, scaling, matrix–vector product, inner and outer
    products, and entrywise sums. */
module Linalg {

  type Vector = seq<real>

  /** A matrix as its list of rows. */
  type Matrix = seq<seq<real>>

  predicate IsMatrix(m: Matrix, rows: nat, cols: nat) {
    |m| == rows && forall i :: 0 <= i < |m| ==> |m[i]| == cols
  }

  predicate IsZero(v: Vector) {
    forall i :: 0 <= i < |v| ==> v[i] == 0.0
  }

  /** `u - v`. */
  function VSub(u: Vector, v: Vector): (r: Vector)
    requires |u| == |v|
    ensures |r| == |u| && forall i :: 0 <= i < |u| ==> r[i] + v[i] == u[i]
  {
    seq(|u|, i requires 0 <= i < |u| => u[i] - v[i])
  }

  /** `v / d`, element by element. */
  function VDiv(v: Vector, d: real): (r: Vector)
    requires d != 0.0
    ensures |r| == |v| && forall i :: 0 <= i < |v| ==> r[i] * d == v[i]
  {
    seq(|v|, i requires 0 <= i < |v| => v[i] / d)
  }

  /** `uᵀ·v`, accumulated from the front. */
  function Dot(u: Vector, v: Vector): real
    requires |u| == |v|
  {
    if |u| == 0 then 0.0 else u[0] * v[0] + Dot(u[1..], v[1..])
  }

  /** `np.matmul(m, v)`: one inner product per row. */
  function MatVec(m: Matrix, v: Vector): (r: Vector)
    requires forall i :: 0 <= i < |m| ==> |m[i]| == |v|
    ensures |r| == |m| && forall i :: 0 <= i < |m| ==> r[i] == Dot(m[i], v)
  {
    seq(|m|, i requires 0 <= i < |m| => Dot(m[i], v))
  }

  /** `np.outer(u, v)`: entry `[i][j]` is `u[i]·v[j]`. */
  function Outer(u: Vector, v: Vector): (r: Matrix)
    ensures IsMatrix(r, |u|, |v|)
    ensures forall i, j :: 0 <= i < |u| && 0 <= j < |v| ==> r[i][j] == u[i] * v[j]
  {
    seq(|u|, i requires 0 <= i < |u| => seq(|v|, j requires 0 <= j < |v| => u[i] * v[j]))
  }

  /** `a + k·b` for matrices of the same shape. */
  function MAddScaled(a: Matrix, k: real, b: Matrix): (r: Matrix)
    requires |a| == |b| && forall i :: 0 <= i < |a| ==> |a[i]| == |b[i]|
    ensures |r| == |a| && forall i :: 0 <= i < |a| ==> |r[i]| == |a[i]|
    ensures forall i, j :: 0 <= i < |a| && 0 <= j < |a[i]| ==> r[i][j] == a[i][j] + k * b[i][j]
  {
    seq(|a|, i requires 0 <= i < |a| =>
      seq(|a[i]|, j requires 0 <= j < |a[i]| => a[i][j] + k * b[i][j]))
  }

  /** A vector's inner product with itself is a sum of squares. */
  lemma {:induction false} DotSelfNonNegative(v: Vector)
    ensures Dot(v, v) >= 0.0
  {
    if |v| > 0 {
      DotSelfNonNegative(v[1..]);
      assert v[0] * v[0] >= 0.0;
    }
  }

  /** A vector with a non-zero entry has a positive inner product with itself. */
  lemma {:induction false} DotSelfPositive(v: Vector)
    requires !IsZero(v)
    ensures Dot(v, v) > 0.0
  {
    DotSelfNonNegative(v[1..]);
    if v[0] == 0.0 {
      assert !IsZero(v[1..]) by {
        var k :| 0 <= k < |v| && v[k] != 0.0;
        assert v[1..][k - 1] == v[k];
      }
      DotSelfPositive(v[1..]);
    } else {
      var a, b := v[0], v[0];
      ProductPositive(a, b);
      assert Dot(v, v) == a * b + Dot(v[1..], v[1..]);
    }
  }

  /** Only the zero vector has a zero inner product with itself. */
  lemma {:induction false} DotSelfZero(v: Vector)
    ensures Dot(v, v) == 0.0 <==> IsZero(v)
  {
    if IsZero(v) {
      DotZeroLeft(v, v);
    } else {
      DotSelfPositive(v);
    }
  }

  /** `a·a > 0` for `a ≠ 0`, stated for two names of the same value so the
      solver keeps the product as one term. */
  lemma ProductPositive(a: real, b: real)
    requires a == b && a != 0.0
    ensures a * b > 0.0
  {
  }

  /** The inner product with a zero vector is zero. */
  lemma {:induction false} DotZeroLeft(u: Vector, v: Vector)
    requires |u| == |v| && IsZero(u)
    ensures Dot(u, v) == 0.0
  {
    if |u| > 0 {
      DotZeroLeft(u[1..], v[1..]);
    }
  }

  /** Linearity in the first argument: if `w = r + c·d` entry by entry then
      `wᵀv = rᵀv + c·(dᵀv)`. */
  lemma {:induction false} DotAxpy(w: Vector, r: Vector, c: real, d: Vector, v: Vector)
    requires |w| == |r| == |d| == |v|
    requires forall k :: 0 <= k < |w| ==> w[k] == r[k] + c * d[k]
    ensures Dot(w, v) == Dot(r, v) + c * Dot(d, v)
  {
    if |w| > 0 {
      DotAxpy(w[1..], r[1..], c, d[1..], v[1..]);
      AxpyStep(w[0], r[0], c, d[0], v[0], Dot(w[1..], v[1..]), Dot(r[1..], v[1..]), Dot(d[1..], v[1..]));
    }
  }

  /** One term of `DotAxpy`: from `w0 = r0 + c·d0` and the same relation
      for the tails' inner products, the relation for the whole. */
  lemma AxpyStep(w0: real, r0: real, c: real, d0: real, v0: real, wt: real, rt: real, dt: real)
    requires w0 == r0 + c * d0 && wt == rt + c * dt
    ensures w0 * v0 + wt == (r0 * v0 + rt) + c * (d0 * v0 + dt)
  {
  }

  /** `r + c·d`, the row that a rank-one update leaves behind. */
  function Axpy(r: Vector, c: real, d: Vector): (w: Vector)
    requires |r| == |d|
    ensures |w| == |r| && forall k :: 0 <= k < |r| ==> w[k] == r[k] + c * d[k]
  {
    seq(|r|, k requires 0 <= k < |r| => r[k] + c * d[k])
  }

  /** Inner products are linear in the first argument. */
  lemma {:induction false} AxpyDot(r: Vector, c: real, d: Vector, v: Vector)
    requires |r| == |d| == |v|
    ensures Dot(Axpy(r, c, d), v) == Dot(r, v) + c * Dot(d, v)
  {
    DotAxpy(Axpy(r, c, d), r, c, d, v);
  }

  /** Row `i` of `a + k·outer(u, d)` is row `i` of `a` plus `(k·u[i])·d`. */
  lemma {:induction false} RankOneEntries(a: Matrix, k: real, u: Vector, d: Vector, i: nat)
    requires IsMatrix(a, |u|, |d|) && i < |u|
    ensures MAddScaled(a, k, Outer(u, d))[i] == Axpy(a[i], k * u[i], d)
  {
    var b := Outer(u, d);
    forall m | 0 <= m < |d|
      ensures MAddScaled(a, k, b)[i][m] == a[i][m] + (k * u[i]) * d[m]
    {
      MulLeft(k, b[i][m], u[i] * d[m]);
    }
  }

  /** Entry `i` of `(a + k·outer(u, d))·v` is `(a·v)[i] + k·u[i]·(dᵀv)`:
      the update moves each row only along `d`. */
  lemma {:induction false} RankOneApply(a: Matrix, k: real, u: Vector, d: Vector, v: Vector, i: nat)
    requires IsMatrix(a, |u|, |d|) && |v| == |d| && i < |u|
    ensures MatVec(MAddScaled(a, k, Outer(u, d)), v)[i] == MatVec(a, v)[i] + k * u[i] * Dot(d, v)
  {
    RankOneEntries(a, k, u, d, i);
    AxpyDot(a[i], k * u[i], d, v);
  }

  /** When `u[i]` is a quotient `e / den`, scaling entry `i` of the updated
      product by `den` trades `u[i]` for `e`. */
  lemma {:induction false} RankOneApplyScaled(a: Matrix, k: real, u: Vector, d: Vector, v: Vector, i: nat, den: real, e: real)
    requires IsMatrix(a, |u|, |d|) && |v| == |d| && i < |u|
    requires u[i] * den == e
    ensures MatVec(MAddScaled(a, k, Outer(u, d)), v)[i] * den == MatVec(a, v)[i] * den + k * Dot(d, v) * e
  {
    RankOneApply(a, k, u, d, v, i);
    ScaleStep(MatVec(MAddScaled(a, k, Outer(u, d)), v)[i], MatVec(a, v)[i], k, u[i], Dot(d, v), den, e);
  }

  /** The scalar step: from `q = p + a·g·s` and `g·d = e` follows
      `q·d = p·d + a·s·e`. */
  lemma ScaleStep(q: real, p: real, a: real, g: real, s: real, d: real, e: real)
    requires q == p + a * g * s && g * d == e
    ensures q * d == p * d + a * s * e
  {
    calc {
      q * d;
      p * d + a * s * (g * d);
      p * d + a * s * e;
    }
  }

  /** Multiplying equals by the same factor; the solver does not always
      rewrite under a product by itself. */
  lemma MulLeft(k: real, b: real, c: real)
    requires b == c
    ensures k * b == k * c
  {
  }
}

=== FILE: quaternion.dfy ===
/** Exact real-valued 3-vectors and scalar-first quaternions: the algebra that
    `pose_transform` and `find_registration` perform with numpy-quaternion. */
module Quaternion {

  /** A point or direction in 3-space. */
  datatype Vec3 = Vec3(x: real, y: real, z: real)

  /** A quaternion w + x·i + y·j + z·k, stored scalar first as the source does. */
  datatype Quat = Quat(w: real, x: real, y: real, z: real)

  const Zero3: Vec3 := Vec3(0.0, 0.0, 0.0)

  /** The multiplicative identity, the "no rotation" quaternion. */
  const Identity: Quat := Quat(1.0, 0.0, 0.0, 0.0)

  function Add(a: Vec3, b: Vec3): Vec3 {
    Vec3(a.x + b.x, a.y + b.y, a.z + b.z)
  }

  function Sub(a: Vec3, b: Vec3): Vec3 {
    Vec3(a.x - b.x, a.y - b.y, a.z - b.z)
  }

  function Scale(k: real, v: Vec3): Vec3 {
    Vec3(k * v.x, k * v.y, k * v.z)
  }

  function Dot(a: Vec3, b: Vec3): real {
    a.x * b.x + a.y * b.y + a.z * b.z
  }

  /** Component `k` of `v`, numbering x, y, z as 0, 1, 2 like a numpy row index. */
  function Coord(v: Vec3, k: nat): real
    requires k < 3
  {
    if k == 0 then v.x else if k == 1 then v.y else v.z
  }

  /** Hamilton product `p ⊗ q`. */
  function Mul(p: Quat, q: Quat): Quat {
    Quat(p.w * q.w - p.x * q.x - p.y * q.y - p.z * q.z,
         p.w * q.x + p.x * q.w + p.y * q.z - p.z * q.y,
         p.w * q.y - p.x * q.z + p.y * q.w + p.z * q.x,
         p.w * q.z + p.x * q.y - p.y * q.x + p.z * q.w)
  }

  function QAdd(p: Quat, q: Quat): Quat {
    Quat(p.w + q.w, p.x + q.x, p.y + q.y, p.z + q.z)
  }

  function Conj(q: Quat): Quat {
    Quat(q.w, -q.x, -q.y, -q.z)
  }

  function NormSq(q: Quat): real {
    q.w * q.w + q.x * q.x + q.y * q.y + q.z * q.z
  }

  predicate IsUnit(q: Quat) {
    NormSq(q) == 1.0
  }

  /** A 3-vector embedded as a quaternion with scalar part 0. */
  function Pure(v: Vec3): Quat {
    Quat(0.0, v.x, v.y, v.z)
  }

  function VectorPart(q: Quat): Vec3 {
    Vec3(q.x, q.y, q.z)
  }

  /** The conjugation `q ⊗ (0,v) ⊗ q̄`, kept as a full quaternion. */
  function Sandwich(q: Quat, v: Vec3): Quat {
    Mul(Mul(q, Pure(v)), Conj(q))
  }

  /** Rotation of `v` by `q`: the vector part of the sandwich product. The
      scalar part that is dropped is always zero, so the 3-vector carries the
      whole product. */
  function Rotate(q: Quat, v: Vec3): (r: Vec3)
    ensures Pure(r) == Sandwich(q, v)
  {
    VectorPart(Sandwich(q, v))
  }

  /** The squared norm is multiplicative: `|p ⊗ q|² = |p|²·|q|²`. The scalar
      part of `(p ⊗ q) ⊗ conj(p ⊗ q)` is regrouped as `p ⊗ (q ⊗ q̄) ⊗ p̄`. */
  lemma MulNormSq(p: Quat, q: Quat)
    ensures NormSq(Mul(p, q)) == NormSq(p) * NormSq(q)
  {
    var m := Mul(p, q);
    var s := Mul(p, Mul(q, Conj(q)));
    calc {
      Quat(NormSq(m), 0.0, 0.0, 0.0);
      { ConjTimesSelf(m); }
      Mul(m, Conj(m));
      { ConjMul(p, q); }
      Mul(m, Mul(Conj(q), Conj(p)));
      { MulAssoc(m, Conj(q), Conj(p)); }
      Mul(Mul(m, Conj(q)), Conj(p));
      { MulAssoc(p, q, Conj(q)); }
      Mul(s, Conj(p));
    }
    ConjTimesSelf(q);
    MulReal(p, NormSq(q));
    ScaledMulW(NormSq(q), p, Conj(p));
    ConjTimesSelf(p);
  }

  /** Multiplying on the right by the real quaternion `(k,0,0,0)` scales. */
  lemma MulReal(p: Quat, k: real)
    ensures Mul(p, Quat(k, 0.0, 0.0, 0.0)) == Quat(k * p.w, k * p.x, k * p.y, k * p.z)
  {
  }

  /** A scalar factor on the left operand comes out of the product's scalar part. */
  lemma ScaledMulW(k: real, p: Quat, r: Quat)
    ensures Mul(Quat(k * p.w, k * p.x, k * p.y, k * p.z), r).w == k * Mul(p, r).w
  {
  }

  /** The product of three quaternions multiplied out into monomials; both
      groupings of `p ⊗ q ⊗ r` reduce to it. */
  function Triple(p: Quat, q: Quat, r: Quat): Quat {
    Quat(p.w * q.w * r.w - p.w * q.x * r.x - p.w * q.y * r.y - p.w * q.z * r.z
          - p.x * q.w * r.x - p.x * q.x * r.w - p.x * q.y * r.z + p.x * q.z * r.y
          - p.y * q.w * r.y + p.y * q.x * r.z - p.y * q.y * r.w - p.y * q.z * r.x
          - p.z * q.w * r.z - p.z * q.x * r.y + p.z * q.y * r.x - p.z * q.z * r.w,

         p.w * q.w * r.x + p.w * q.x * r.w + p.w * q.y * r.z - p.w * q.z * r.y
          + p.x * q.w * r.w - p.x * q.x * r.x - p.x * q.y * r.y - p.x * q.z * r.z
          + p.y * q.w * r.z + p.y * q.x * r.y - p.y * q.y * r.x + p.y * q.z * r.w
          - p.z * q.w * r.y + p.z * q.x * r.z - p.z * q.y * r.w - p.z * q.z * r.x,

         p.w * q.w * r.y - p.w * q.x * r.z + p.w * q.y * r.w + p.w * q.z * r.x
          - p.x * q.w * r.z - p.x * q.x * r.y + p.x * q.y * r.x - p.x * q.z * r.w
          + p.y * q.w * r.w - p.y * q.x * r.x - p.y * q.y * r.y - p.y * q.z * r.z
          + p.z * q.w * r.x + p.z * q.x * r.w + p.z * q.y * r.z - p.z * q.z * r.y,

         p.w * q.w * r.z + p.w * q.x * r.y - p.w * q.y * r.x + p.w * q.z * r.w
          + p.x * q.w * r.y - p.x * q.x * r.z + p.x * q.y * r.w + p.x * q.z * r.x
          - p.y * q.w * r.x - p.y * q.x * r.w - p.y * q.y * r.z + p.y * q.z * r.y
          + p.z * q.w * r.w - p.z * q.x * r.x - p.z * q.y * r.y - p.z * q.z * r.z)
  }

  lemma GroupLeftW(p: Quat, q: Quat, r: Quat)
    ensures Mul(Mul(p, q), r).w == Triple(p, q, r).w
  {
  }

  lemma GroupRightW(p: Quat, q: Quat, r: Quat)
    ensures Mul(p, Mul(q, r)).w == Triple(p, q, r).w
  {
  }

  lemma GroupLeftX(p: Quat, q: Quat, r: Quat)
    ensures Mul(Mul(p, q), r).x == Triple(p, q, r).x
  {
  }

  lemma GroupRightX(p: Quat, q: Quat, r: Quat)
    ensures Mul(p, Mul(q, r)).x == Triple(p, q, r).x
  {
  }

  lemma GroupLeftY(p: Quat, q: Quat, r: Quat)
    ensures Mul(Mul(p, q), r).y == Triple(p, q, r).y
  {
  }

  lemma GroupRightY(p: Quat, q: Quat, r: Quat)
    ensures Mul(p, Mul(q, r)).y == Triple(p, q, r).y
  {
  }

  lemma GroupLeftZ(p: Quat, q: Quat, r: Quat)
    ensures Mul(Mul(p, q), r).z == Triple(p, q, r).z
  {
  }

  lemma GroupRightZ(p: Quat, q: Quat, r: Quat)
    ensures Mul(p, Mul(q, r)).z == Triple(p, q, r).z
  {
  }

  /** The Hamilton product is associative. */
  lemma MulAssoc(p: Quat, q: Quat, r: Quat)
    ensures Mul(Mul(p, q), r) == Mul(p, Mul(q, r))
  {
    GroupLeftW(p, q, r);
    GroupRightW(p, q, r);
    GroupLeftX(p, q, r);
    GroupRightX(p, q, r);
    GroupLeftY(p, q, r);
    GroupRightY(p, q, r);
    GroupLeftZ(p, q, r);
    GroupRightZ(p, q, r);
  }

  /** Conjugation reverses a product. */
  lemma ConjMul(p: Quat, q: Quat)
    ensures Conj(Mul(p, q)) == Mul(Conj(q), Conj(p))
  {
    ConjMulX(p, q);
    ConjMulY(p, q);
    ConjMulZ(p, q);
  }

  lemma ConjMulX(p: Quat, q: Quat)
    ensures Mul(Conj(q), Conj(p)).x == -Mul(p, q).x
  {
  }

  lemma ConjMulY(p: Quat, q: Quat)
    ensures Mul(Conj(q), Conj(p)).y == -Mul(p, q).y
  {
  }

  lemma ConjMulZ(p: Quat, q: Quat)
    ensures Mul(Conj(q), Conj(p)).z == -Mul(p, q).z
  {
  }

  /** `q̄ ⊗ q` and `q ⊗ q̄` are the real number `|q|²`. */
  lemma ConjTimesSelf(q: Quat)
    ensures Mul(Conj(q), q) == Quat(NormSq(q), 0.0, 0.0, 0.0)
    ensures Mul(q, Conj(q)) == Quat(NormSq(q), 0.0, 0.0, 0.0)
  {
  }

  /** The squared length of a rotated vector is `|q|⁴·|v|²`; a unit `q`
      therefore preserves length. */
  lemma RotateLengthSq(q: Quat, v: Vec3)
    ensures Dot(Rotate(q, v), Rotate(q, v)) == NormSq(q) * NormSq(q) * Dot(v, v)
  {
    var r := Rotate(q, v);
    MulNormSq(q, Pure(v));
    MulNormSq(Mul(q, Pure(v)), Conj(q));
    assert NormSq(Pure(r)) == NormSq(Sandwich(q, v));
    assert NormSq(Conj(q)) == NormSq(q);
    assert NormSq(Pure(v)) == Dot(v, v);
    assert NormSq(Pure(r)) == Dot(r, r);
  }

  /** Rotating by `p` after `q` is rotating by `p ⊗ q`. */
  lemma RotateCompose(p: Quat, q: Quat, v: Vec3)
    ensures Rotate(p, Rotate(q, v)) == Rotate(Mul(p, q), v)
  {
    var u := Pure(v);
    calc {
      Pure(Rotate(p, Rotate(q, v)));
      Mul(Mul(p, Mul(Mul(q, u), Conj(q))), Conj(p));
      { MulAssoc(p, Mul(q, u), Conj(q)); }
      Mul(Mul(Mul(p, Mul(q, u)), Conj(q)), Conj(p));
      { MulAssoc(p, q, u); }
      Mul(Mul(Mul(Mul(p, q), u), Conj(q)), Conj(p));
      { MulAssoc(Mul(Mul(p, q), u), Conj(q), Conj(p)); }
      Mul(Mul(Mul(p, q), u), Mul(Conj(q), Conj(p)));
      { ConjMul(p, q); }
      Pure(Rotate(Mul(p, q), v));
    }
  }

  /** Rotating back by the conjugate scales by `|q|⁴`, so for a unit `q` it undoes the rotation. */
  lemma RotateByConj(q: Quat, v: Vec3)
    ensures Rotate(Conj(q), Rotate(q, v)) == Scale(NormSq(q) * NormSq(q), v)
  {
    RotateCompose(Conj(q), q, v);
    ConjTimesSelf(q);
  }

  /** Rotation distributes over vector addition. */
  lemma RotateAdd(q: Quat, a: Vec3, b: Vec3)
    ensures Rotate(q, Add(a, b)) == Add(Rotate(q, a), Rotate(q, b))
  {
  }

  /** Rotation distributes over vector subtraction. */
  lemma RotateSub(q: Quat, a: Vec3, b: Vec3)
    ensures Rotate(q, Sub(a, b)) == Sub(Rotate(q, a), Rotate(q, b))
  {
  }

  /** The identity quaternion neither rotates vectors nor changes the quaternion it multiplies, on either side. */
  lemma IdentityNeutral(q: Quat, v: Vec3)
    ensures Mul(Identity, q) == q
    ensures Mul(q, Identity) == q
    ensures Rotate(Identity, v) == v
  {
  }
}

=== FILE: registration.dfy ===
/** Point-based rigid registration (`find_registration`): centroids, centring,
    the cross-covariance `M = A·Bᵀ`, Horn's symmetric 4×4 matrix `N`, the
    rotation matrix of a quaternion and the translation `t = Bc − R·Ac`.
    The eigen-decomposition of `N` is an input: `FindRegistration` takes it as
    a function from `N` to the quaternion the source selects. */
module Registration {
  import opened Quaternion
  import opened Frames

  /** A 3×3 matrix stored by rows, as numpy stores `M` and `R`. */
  datatype Mat3 = Mat3(r0: Vec3, r1: Vec3, r2: Vec3)

  const ZeroMat: Mat3 := Mat3(Zero3, Zero3, Zero3)

  /** `s·np.eye(3)`. */
  function ScaledIdentity(s: real): Mat3 {
    Mat3(Vec3(s, 0.0, 0.0), Vec3(0.0, s, 0.0), Vec3(0.0, 0.0, s))
  }

  function MatAdd(m1: Mat3, m2: Mat3): Mat3 {
    Mat3(Add(m1.r0, m2.r0), Add(m1.r1, m2.r1), Add(m1.r2, m2.r2))
  }

  function MatScale(k: real, m: Mat3): Mat3 {
    Mat3(Scale(k, m.r0), Scale(k, m.r1), Scale(k, m.r2))
  }

  /** `np.matmul(R, v)` for a 3-vector `v`. */
  function Apply(m: Mat3, v: Vec3): Vec3 {
    Vec3(Dot(m.r0, v), Dot(m.r1, v), Dot(m.r2, v))
  }

  /** `np.outer(a, b)`: entry `[r][c]` is `a[r]·b[c]`. */
  function Outer(a: Vec3, b: Vec3): Mat3 {
    Mat3(Scale(a.x, b), Scale(a.y, b), Scale(a.z, b))
  }

  /** Column `k` of `m`. */
  function Col(m: Mat3, k: nat): Vec3
    requires k < 3
  {
    Vec3(Coord(m.r0, k), Coord(m.r1, k), Coord(m.r2, k))
  }

  /** The cross-product matrix `[u]ₓ`, written out in the source as
      `[[0,-q3,q2],[q3,0,-q1],[-q2,q1,0]]`. */
  function Skew(u: Vec3): Mat3 {
    Mat3(Vec3(0.0, -u.z, u.y), Vec3(u.z, 0.0, -u.x), Vec3(-u.y, u.x, 0.0))
  }

  // ---------------------------------------------------------------------------
  // Centroids and centring

  /** Sum of a sequence of points, accumulated from the front. */
  function Sum(ps: seq<Vec3>): Vec3 {
    if |ps| == 0 then Zero3 else Add(Sum(ps[..|ps| - 1]), ps[|ps| - 1])
  }

  /** `np.mean` over the points: the sum divided by their number. */
  function Centroid(ps: seq<Vec3>): Vec3
    requires |ps| > 0
  {
    Scale(1.0 / (|ps| as real), Sum(ps))
  }

  /** Every point shifted by `-c` (`A - repmat(Ac, 1, n)`). */
  function Center(ps: seq<Vec3>, c: Vec3): (r: seq<Vec3>)
    ensures |r| == |ps|
    ensures forall i :: 0 <= i < |ps| ==> r[i] == Sub(ps[i], c)
  {
    seq(|ps|, i requires 0 <= i < |ps| => Sub(ps[i], c))
  }

  lemma {:induction false} SumCenter(ps: seq<Vec3>, c: Vec3)
    ensures Sum(Center(ps, c)) == Sub(Sum(ps), Scale(|ps| as real, c))
  {
    if |ps| > 0 {
      var n := |ps| - 1;
      assert Center(ps, c)[..n] == Center(ps[..n], c);
      SumCenter(ps[..n], c);
      ShiftStep(Sum(ps[..n]), ps[n], c, n as real);
    }
  }

  /** One more point shifted by `-c` adds one more `-c` to the sum. */
  lemma ShiftStep(s: Vec3, p: Vec3, c: Vec3, k: real)
    ensures Add(Sub(s, Scale(k, c)), Sub(p, c)) == Sub(Add(s, p), Scale(k + 1.0, c))
  {
  }

  lemma ScaleInverse(n: real, s: Vec3)
    requires n > 0.0
    ensures Scale(n, Scale(1.0 / n, s)) == s
  {
    assert n * (1.0 / n) == 1.0;
    assert n * (1.0 / n * s.x) == (n * (1.0 / n)) * s.x;
    assert n * (1.0 / n * s.y) == (n * (1.0 / n)) * s.y;
    assert n * (1.0 / n * s.z) == (n * (1.0 / n)) * s.z;
  }

  /** The centred points sum to zero: the columns of the centred `A` and `B`
      have zero mean. */
  lemma CenteredSumZero(ps: seq<Vec3>)
    requires |ps| > 0
    ensures Sum(Center(ps, Centroid(ps))) == Zero3
  {
    SumCenter(ps, Centroid(ps));
    ScaleInverse(|ps| as real, Sum(ps));
  }

  // ---------------------------------------------------------------------------
  // Cross-covariance and Horn's matrix

  /** `M = A·Bᵀ` for the point lists `a` and `b` (the columns of `A` and `B`):
      the sum of the outer products `a[i]·b[i]ᵀ`. */
  function CrossCovariance(a: seq<Vec3>, b: seq<Vec3>): Mat3
    requires |a| == |b|
  {
    if |a| == 0 then ZeroMat
    else MatAdd(CrossCovariance(a[..|a| - 1], b[..|b| - 1]), Outer(a[|a| - 1], b[|b| - 1]))
  }

  predicate IsSquare(m: seq<seq<real>>, n: nat) {
    |m| == n && forall i :: 0 <= i < n ==> |m[i]| == n
  }

  /** Horn's matrix `N` built from the entries of `M`. It is symmetric and its
      trace is zero, so its eigenvalues are real and sum to zero. */
  function HornMatrix(m: Mat3): (r: seq<seq<real>>)
    ensures IsSquare(r, 4)
    ensures forall i, j :: 0 <= i < 4 && 0 <= j < 4 ==> r[i][j] == r[j][i]
    ensures r[0][0] + r[1][1] + r[2][2] + r[3][3] == 0.0
  {
    [[m.r0.x + m.r1.y + m.r2.z, m.r1.z - m.r2.y, m.r2.x - m.r0.z, m.r0.y - m.r1.x],
     [m.r1.z - m.r2.y, m.r0.x - m.r1.y - m.r2.z, m.r0.y + m.r1.x, m.r2.x + m.r0.z],
     [m.r2.x - m.r0.z, m.r0.y + m.r1.x, m.r1.y - m.r0.x - m.r2.z, m.r1.z + m.r2.y],
     [m.r0.y - m.r1.x, m.r2.x + m.r0.z, m.r1.z + m.r2.y, m.r2.z - m.r0.x - m.r1.y]]
  }

  /** The quadratic form `qᵀ·N·q`, with `q` read as the column `[w, x, y, z]`. */
  function QuadForm(n: seq<seq<real>>, q: Quat): real
    requires IsSquare(n, 4)
  {
    q.w * (n[0][0] * q.w + n[0][1] * q.x + n[0][2] * q.y + n[0][3] * q.z)
    + q.x * (n[1][0] * q.w + n[1][1] * q.x + n[1][2] * q.y + n[1][3] * q.z)
    + q.y * (n[2][0] * q.w + n[2][1] * q.x + n[2][2] * q.y + n[2][3] * q.z)
    + q.z * (n[3][0] * q.w + n[3][1] * q.x + n[3][2] * q.y + n[3][3] * q.z)
  }

  // ---------------------------------------------------------------------------
  // Rotation matrix

  /** `R = (q0² − u·u)·I + 2·u·uᵀ + 2·q0·[u]ₓ` with `u` the vector part of `q`. */
  function RotationMatrix(q: Quat): Mat3 {
    var u := VectorPart(q);
    MatAdd(MatAdd(ScaledIdentity(q.w * q.w - Dot(u, u)), MatScale(2.0, Outer(u, u))),
           MatScale(2.0 * q.w, Skew(u)))
  }

  /** The rotated vector in closed form,
      `(w² − |u|²)·v + 2·(u·v)·u + 2·w·(u × v)` with `u` the vector part. */
  function RotationFormula(q: Quat, v: Vec3): Vec3 {
    Vec3((q.w * q.w - q.x * q.x - q.y * q.y - q.z * q.z) * v.x + 2.0 * (q.x * v.x + q.y * v.y + q.z * v.z) * q.x + 2.0 * q.w * (q.y * v.z - q.z * v.y),
         (q.w * q.w - q.x * q.x - q.y * q.y - q.z * q.z) * v.y + 2.0 * (q.x * v.x + q.y * v.y + q.z * v.z) * q.y + 2.0 * q.w * (q.z * v.x - q.x * v.z),
         (q.w * q.w - q.x * q.x - q.y * q.y - q.z * q.z) * v.z + 2.0 * (q.x * v.x + q.y * v.y + q.z * v.z) * q.z + 2.0 * q.w * (q.x * v.y - q.y * v.x))
  }

  /** The sandwich product multiplied out is the closed form. */
  lemma RotateFormula(q: Quat, v: Vec3)
    ensures Rotate(q, v) == RotationFormula(q, v)
  {
    FormulaX(q, v);
    FormulaY(q, v);
    FormulaZ(q, v);
  }

  lemma FormulaX(q: Quat, v: Vec3)
    ensures Rotate(q, v).x == RotationFormula(q, v).x
  {
    RotateX(q, v);
  }

  lemma FormulaY(q: Quat, v: Vec3)
    ensures Rotate(q, v).y == RotationFormula(q, v).y
  {
    RotateY(q, v);
  }

  lemma FormulaZ(q: Quat, v: Vec3)
    ensures Rotate(q, v).z == RotationFormula(q, v).z
  {
    RotateZ(q, v);
  }

  /** The first component of the sandwich product multiplied out. */
  lemma RotateX(q: Quat, v: Vec3)
    ensures Rotate(q, v).x == (q.w * q.w - q.x * q.x - q.y * q.y - q.z * q.z) * v.x
                              + 2.0 * (q.x * v.x + q.y * v.y + q.z * v.z) * q.x
                              + 2.0 * q.w * (q.y * v.z - q.z * v.y)
  {
  }

  lemma RotateY(q: Quat, v: Vec3)
    ensures Rotate(q, v).y == (q.w * q.w - q.x * q.x - q.y * q.y - q.z * q.z) * v.y
                              + 2.0 * (q.x * v.x + q.y * v.y + q.z * v.z) * q.y
                              + 2.0 * q.w * (q.z * v.x - q.x * v.z)
  {
  }

  lemma RotateZ(q: Quat, v: Vec3)
    ensures Rotate(q, v).z == (q.w * q.w - q.x * q.x - q.y * q.y - q.z * q.z) * v.z
                              + 2.0 * (q.x * v.x + q.y * v.y + q.z * v.z) * q.z
                              + 2.0 * q.w * (q.x * v.y - q.y * v.x)
  {
  }

  lemma MatrixRowX(q: Quat)
    ensures RotationMatrix(q).r0 == Vec3(q.w * q.w - q.x * q.x - q.y * q.y - q.z * q.z + 2.0 * q.x * q.x,
                                         2.0 * q.x * q.y - 2.0 * q.w * q.z,
                                         2.0 * q.x * q.z + 2.0 * q.w * q.y)
  {
  }

  lemma MatrixRowY(q: Quat)
    ensures RotationMatrix(q).r1 == Vec3(2.0 * q.y * q.x + 2.0 * q.w * q.z,
                                         q.w * q.w - q.x * q.x - q.y * q.y - q.z * q.z + 2.0 * q.y * q.y,
                                         2.0 * q.y * q.z - 2.0 * q.w * q.x)
  {
  }

  lemma MatrixRowZ(q: Quat)
    ensures RotationMatrix(q).r2 == Vec3(2.0 * q.z * q.x - 2.0 * q.w * q.y,
                                         2.0 * q.z * q.y + 2.0 * q.w * q.x,
                                         q.w * q.w - q.x * q.x - q.y * q.y - q.z * q.z + 2.0 * q.z * q.z)
  {
  }

  /** The matrix the source builds from `q` rotates exactly as the quaternion
      sandwich `q ⊗ (0,v) ⊗ q̄` does, for every `q` (unit or not). */
  lemma RotationMatrixRotates(q: Quat, v: Vec3)
    ensures Apply(RotationMatrix(q), v) == Rotate(q, v)
  {
    ApplyX(q, v);
    ApplyY(q, v);
    ApplyZ(q, v);
    RotateFormula(q, v);
  }

  lemma ApplyX(q: Quat, v: Vec3)
    ensures Apply(RotationMatrix(q), v).x == RotationFormula(q, v).x
  {
    MatrixRowX(q);
    DotEntries(RotationMatrix(q).r0, v, q.w * q.w - q.x * q.x - q.y * q.y - q.z * q.z + 2.0 * q.x * q.x, 2.0 * q.x * q.y - 2.0 * q.w * q.z, 2.0 * q.x * q.z + 2.0 * q.w * q.y);
    RowPolyX(q.w, q.x, q.y, q.z, v.x, v.y, v.z);
  }

  lemma ApplyY(q: Quat, v: Vec3)
    ensures Apply(RotationMatrix(q), v).y == RotationFormula(q, v).y
  {
    MatrixRowY(q);
    DotEntries(RotationMatrix(q).r1, v, 2.0 * q.y * q.x + 2.0 * q.w * q.z, q.w * q.w - q.x * q.x - q.y * q.y - q.z * q.z + 2.0 * q.y * q.y, 2.0 * q.y * q.z - 2.0 * q.w * q.x);
    RowPolyY(q.w, q.x, q.y, q.z, v.x, v.y, v.z);
  }

  lemma ApplyZ(q: Quat, v: Vec3)
    ensures Apply(RotationMatrix(q), v).z == RotationFormula(q, v).z
  {
    MatrixRowZ(q);
    DotEntries(RotationMatrix(q).r2, v, 2.0 * q.z * q.x - 2.0 * q.w * q.y, 2.0 * q.z * q.y + 2.0 * q.w * q.x, q.w * q.w - q.x * q.x - q.y * q.y - q.z * q.z + 2.0 * q.z * q.z);
    RowPolyZ(q.w, q.x, q.y, q.z, v.x, v.y, v.z);
  }

  lemma DotEntries(r: Vec3, v: Vec3, a: real, b: real, c: real)
    requires r == Vec3(a, b, c)
    ensures Dot(r, v) == a * v.x + b * v.y + c * v.z
  {
  }

  /** The row-by-vector products of `RotationMatrix` against the expanded
      sandwich, on coordinates: `(w, x, y, z)` is the quaternion and
      `(a, b, c)` the vector. */
  lemma RowPolyX(w: real, x: real, y: real, z: real, a: real, b: real, c: real)
    ensures (w * w - x * x - y * y - z * z + 2.0 * x * x) * a + (2.0 * x * y - 2.0 * w * z) * b
            + (2.0 * x * z + 2.0 * w * y) * c
         == (w * w - x * x - y * y - z * z) * a + 2.0 * (x * a + y * b + z * c) * x + 2.0 * w * (y * c - z * b)
  {
  }

  lemma RowPolyY(w: real, x: real, y: real, z: real, a: real, b: real, c: real)
    ensures (2.0 * y * x + 2.0 * w * z) * a + (w * w - x * x - y * y - z * z + 2.0 * y * y) * b
            + (2.0 * y * z - 2.0 * w * x) * c
         == (w * w - x * x - y * y - z * z) * b + 2.0 * (x * a + y * b + z * c) * y + 2.0 * w * (z * a - x * c)
  {
  }

  lemma RowPolyZ(w: real, x: real, y: real, z: real, a: real, b: real, c: real)
    ensures (2.0 * z * x - 2.0 * w * y) * a + (2.0 * z * y + 2.0 * w * x) * b
            + (w * w - x * x - y * y - z * z + 2.0 * z * z) * c
         == (w * w - x * x - y * y - z * z) * c + 2.0 * (x * a + y * b + z * c) * z + 2.0 * w * (x * b - y * a)
  {
  }

  // ---------------------------------------------------------------------------
  // The registration transform

  /** `find_registration(A, B)`: the quaternion is what the eigen-solver picks
      for `N` (the eigenvector of the largest eigenvalue in the source); the
      translation carries the centroid of `a`, rotated, onto the centroid of `b`. */
  function FindRegistration(a: seq<Vec3>, b: seq<Vec3>, eig: seq<seq<real>> -> Quat): (r: Pose)
    requires |a| == |b| > 0
    ensures r.rot == eig(HornMatrix(CrossCovariance(Center(a, Centroid(a)), Center(b, Centroid(b)))))
    ensures Add(Rotate(r.rot, Centroid(a)), r.pos) == Centroid(b)
  {
    var ac := Centroid(a);
    var bc := Centroid(b);
    var m := CrossCovariance(Center(a, ac), Center(b, bc));
    var q := eig(HornMatrix(m));
    RotationMatrixRotates(q, ac);
    Pose(Sub(bc, Apply(RotationMatrix(q), ac)), q)
  }

  /** Transforming the centroid of the tracker points by the registration, with
      any orientation, lands on the centroid of the stage points. */
  lemma RegistrationMapsCentroid(a: seq<Vec3>, b: seq<Vec3>, eig: seq<seq<real>> -> Quat, rot: Quat)
    requires |a| == |b| > 0
    ensures PoseTransform(Pose(Centroid(a), rot), FindRegistration(a, b, eig)).pos == Centroid(b)
  {
    TransformPosition(Pose(Centroid(a), rot), FindRegistration(a, b, eig));
  }

  /** Each registered tracker point sits at the stage centroid plus its own
      centred position rotated by the registration quaternion. */
  lemma RegistrationOfPoint(a: seq<Vec3>, b: seq<Vec3>, eig: seq<seq<real>> -> Quat, i: nat, rot: Quat)
    requires |a| == |b| > 0 && i < |a|
    ensures var r := FindRegistration(a, b, eig);
            PoseTransform(Pose(a[i], rot), r).pos
              == Add(Rotate(r.rot, Sub(a[i], Centroid(a))), Centroid(b))
  {
    var r := FindRegistration(a, b, eig);
    TransformPosition(Pose(a[i], rot), r);
    RotateSub(r.rot, a[i], Centroid(a));
  }

  // ---------------------------------------------------------------------------
  // Why the largest eigenvector is chosen: Horn's objective

  /** `trace(R(q)·M)`: column `k` of `M` rotated by `q`, read at row `k`,
      summed over `k`. By `RotationMatrixRotates` the rotation of a column is
      the product `R(q)·M[:, k]`. */
  function Pairing(q: Quat, m: Mat3): real {
    Rotate(q, Col(m, 0)).x + Rotate(q, Col(m, 1)).y + Rotate(q, Col(m, 2)).z
  }

  /** Horn's fit score of the rotation `q` on the point pairs: the sum of
      `b[i] · (q rotating a[i])`; the least-squares rotation maximises it. */
  function FitScore(q: Quat, a: seq<Vec3>, b: seq<Vec3>): real
    requires |a| == |b|
  {
    if |a| == 0 then 0.0
    else FitScore(q, a[..|a| - 1], b[..|b| - 1]) + Dot(Rotate(q, a[|a| - 1]), b[|b| - 1])
  }

  /** Rotation commutes with scaling. */
  lemma RotateScale(q: Quat, k: real, v: Vec3)
    ensures Rotate(q, Scale(k, v)) == Scale(k, Rotate(q, v))
  {
    RotateScaleX(q, k, v);
    RotateScaleY(q, k, v);
    RotateScaleZ(q, k, v);
  }

  lemma RotateScaleX(q: Quat, k: real, v: Vec3)
    ensures Rotate(q, Scale(k, v)).x == k * Rotate(q, v).x
  {
    var kv := Scale(k, v);
    RotateX(q, v);
    RotateX(q, kv);
    ScalePolyX(q.w, q.x, q.y, q.z, v.x, v.y, v.z, k, kv.x, kv.y, kv.z, Rotate(q, v).x, Rotate(q, kv).x);
  }

  lemma ScalePolyX(w: real, x: real, y: real, z: real, a: real, b: real, c: real,
                    k: real, ka: real, kb: real, kc: real, r: real, kr: real)
    requires ka == k * a && kb == k * b && kc == k * c
    requires r == (w * w - x * x - y * y - z * z) * a + 2.0 * (x * a + y * b + z * c) * x + 2.0 * w * (y * c - z * b)
    requires kr == (w * w - x * x - y * y - z * z) * ka + 2.0 * (x * ka + y * kb + z * kc) * x + 2.0 * w * (y * kc - z * kb)
    ensures kr == k * r
  {
  }

  lemma RotateScaleY(q: Quat, k: real, v: Vec3)
    ensures Rotate(q, Scale(k, v)).y == k * Rotate(q, v).y
  {
    var kv := Scale(k, v);
    RotateY(q, v);
    RotateY(q, kv);
    ScalePolyY(q.w, q.x, q.y, q.z, v.x, v.y, v.z, k, kv.x, kv.y, kv.z, Rotate(q, v).y, Rotate(q, kv).y);
  }

  lemma ScalePolyY(w: real, x: real, y: real, z: real, a: real, b: real, c: real,
                    k: real, ka: real, kb: real, kc: real, r: real, kr: real)
    requires ka == k * a && kb == k * b && kc == k * c
    requires r == (w * w - x * x - y * y - z * z) * b + 2.0 * (x * a + y * b + z * c) * y + 2.0 * w * (z * a - x * c)
    requires kr == (w * w - x * x - y * y - z * z) * kb + 2.0 * (x * ka + y * kb + z * kc) * y + 2.0 * w * (z * ka - x * kc)
    ensures kr == k * r
  {
  }

  lemma RotateScaleZ(q: Quat, k: real, v: Vec3)
    ensures Rotate(q, Scale(k, v)).z == k * Rotate(q, v).z
  {
    var kv := Scale(k, v);
    RotateZ(q, v);
    RotateZ(q, kv);
    ScalePolyZ(q.w, q.x, q.y, q.z, v.x, v.y, v.z, k, kv.x, kv.y, kv.z, Rotate(q, v).z, Rotate(q, kv).z);
  }

  lemma ScalePolyZ(w: real, x: real, y: real, z: real, a: real, b: real, c: real,
                    k: real, ka: real, kb: real, kc: real, r: real, kr: real)
    requires ka == k * a && kb == k * b && kc == k * c
    requires r == (w * w - x * x - y * y - z * z) * c + 2.0 * (x * a + y * b + z * c) * z + 2.0 * w * (x * b - y * a)
    requires kr == (w * w - x * x - y * y - z * z) * kc + 2.0 * (x * ka + y * kb + z * kc) * z + 2.0 * w * (x * kb - y * ka)
    ensures kr == k * r
  {
  }

  lemma PairingAdd(q: Quat, m1: Mat3, m2: Mat3)
    ensures Pairing(q, MatAdd(m1, m2)) == Pairing(q, m1) + Pairing(q, m2)
  {
    assert Col(MatAdd(m1, m2), 0) == Add(Col(m1, 0), Col(m2, 0));
    assert Col(MatAdd(m1, m2), 1) == Add(Col(m1, 1), Col(m2, 1));
    assert Col(MatAdd(m1, m2), 2) == Add(Col(m1, 2), Col(m2, 2));
    RotateAdd(q, Col(m1, 0), Col(m2, 0));
    RotateAdd(q, Col(m1, 1), Col(m2, 1));
    RotateAdd(q, Col(m1, 2), Col(m2, 2));
  }

  lemma PairingOuter(q: Quat, a: Vec3, b: Vec3)
    ensures Pairing(q, Outer(a, b)) == Dot(Rotate(q, a), b)
  {
    assert Col(Outer(a, b), 0) == Scale(b.x, a);
    assert Col(Outer(a, b), 1) == Scale(b.y, a);
    assert Col(Outer(a, b), 2) == Scale(b.z, a);
    RotateScale(q, b.x, a);
    RotateScale(q, b.y, a);
    RotateScale(q, b.z, a);
  }

  /** The quadratic form of Horn's matrix is `trace(R(q)·M)`. */
  lemma HornQuadForm(m: Mat3, q: Quat)
    ensures QuadForm(HornMatrix(m), q) == Pairing(q, m)
  {
    RotateX(q, Col(m, 0));
    RotateY(q, Col(m, 1));
    RotateZ(q, Col(m, 2));
  }

  /** `trace(R(q)·A·Bᵀ)` is the fit score of `q` on the columns of `A` and `B`. */
  lemma {:induction false} PairingCrossCovariance(q: Quat, a: seq<Vec3>, b: seq<Vec3>)
    requires |a| == |b|
    ensures Pairing(q, CrossCovariance(a, b)) == FitScore(q, a, b)
  {
    if |a| > 0 {
      var n := |a| - 1;
      PairingCrossCovariance(q, a[..n], b[..n]);
      PairingAdd(q, CrossCovariance(a[..n], b[..n]), Outer(a[n], b[n]));
      PairingOuter(q, a[n], b[n]);
    } else {
      assert Col(ZeroMat, 0) == Zero3 && Col(ZeroMat, 1) == Zero3 && Col(ZeroMat, 2) == Zero3;
      RotateScale(q, 0.0, Zero3);
    }
  }

  /** Horn's objective: `qᵀ·N·q` is the fit score of `q` on the centred pairs
      whose cross-covariance built `N`. */
  lemma HornObjective(q: Quat, a: seq<Vec3>, b: seq<Vec3>)
    requires |a| == |b|
    ensures QuadForm(HornMatrix(CrossCovariance(a, b)), q) == FitScore(q, a, b)
  {
    HornQuadForm(CrossCovariance(a, b), q);
    PairingCrossCovariance(q, a, b);
  }

  /** `q` is a unit quaternion at which `qᵀ·N·q` is largest over all unit
      quaternions: for symmetric `N`, a unit eigenvector of its largest
      eigenvalue. */
  ghost predicate MaximisesForm(n: seq<seq<real>>, q: Quat)
    requires IsSquare(n, 4)
  {
    IsUnit(q) && forall p :: IsUnit(p) ==> QuadForm(n, p) <= QuadForm(n, q)
  }

  /** When the eigen-solver returns the top unit eigenvector of `N`, the
      registration rotation has the best fit score of all rotations on the
      centred point pairs. */
  lemma RegistrationMaximisesFit(a: seq<Vec3>, b: seq<Vec3>, eig: seq<seq<real>> -> Quat, p: Quat)
    requires |a| == |b| > 0
    requires var n := HornMatrix(CrossCovariance(Center(a, Centroid(a)), Center(b, Centroid(b))));
             MaximisesForm(n, eig(n))
    requires IsUnit(p)
    ensures var ca := Center(a, Centroid(a));
            var cb := Center(b, Centroid(b));
            FitScore(p, ca, cb) <= FitScore(FindRegistration(a, b, eig).rot, ca, cb)
  {
    var ca := Center(a, Centroid(a));
    var cb := Center(b, Centroid(b));
    HornObjective(p, ca, cb);
    HornObjective(FindRegistration(a, b, eig).rot, ca, cb);
  }
}

=== FILE: sensor_node.dfy ===
/** The state of the `SensorProcessing` node and its message callbacks: the
    tracker callback that stores, smooths and registers the needle tip and
    needle base readings, the keyboard callback that collects registration
    points and the entry point, and the timer that publishes the filtered
    poses. */
module SensorNode {
  import opened Wrappers
  import opened Quaternion
  import opened Frames

  /** `DIST_NEEDLE_BASE`: subtracted from the base pose's z before it is
      published. */
  const NeedleBaseDistance: real := 30.9

  /** The smoothing filter sees at most this many of the latest readings. */
  const WindowLimit: nat := 500

  /** Key codes delivered on the keyboard topic. */
  const KeyEnter: int := 10
  const KeySpace: int := 32

  /** Tool names the tracker bridge attaches to each transform. */
  const TipSensor: string := "NeedleToTracker"
  const BaseSensor: string := "BaseToTracker"

  /** `B`: the registration points in the stage frame, one entry per column
      of the source's 3×10 array. */
  const StagePoints: seq<Vec3> := [
    Vec3(25.0,  0.0,  0.0), Vec3(25.0, 25.0,  0.0), Vec3(25.0, 40.0,  0.0),
    Vec3( 0.0, 40.0,  0.0), Vec3( 0.0, 25.0,  0.0), Vec3(25.0,  0.0, 22.3),
    Vec3(25.0, 25.0, 22.3), Vec3(25.0, 40.0, 22.3), Vec3( 0.0, 40.0, 22.3),
    Vec3( 0.0, 25.0, 22.3)]

  /** Prompt slots of `keyboard_request`: one per stage point, then the last
      one for the entry point. */
  const EntrySlot: nat := 10
  const PromptSlots: nat := 11

  /** A smoothing filter applied to a window of readings, yielding the
      smoothed value of the latest one. */
  type Filter = seq<Pose> -> Pose

  /** The node's stored values; `None` and `[]` stand for the source's empty
      arrays. */
  datatype Node = Node(
    registration: Option<Pose>, // tracker frame to stage frame
    entryPoint: Option<Pose>,   // filtered tip pose when the insertion starts
    tipRaw: Option<Pose>,       // Z_sensor, the latest tip reading as sent
    tipHistory: seq<Pose>,      // auroraZ
    tip: Option<Pose>,          // Z, filtered tip pose in the stage frame
    baseRaw: Option<Pose>,      // X_sensor
    baseHistory: seq<Pose>,     // auroraX
    base: Option<Pose>,         // X
    points: seq<Vec3>,          // A, the registration points in the tracker frame
    requested: seq<bool>)       // keyboard_request: prompt already printed

  /** The shape every node keeps: one prompt flag per slot. */
  predicate Valid(n: Node) {
    |n.requested| == PromptSlots
  }

  /** The node as the constructor leaves it. */
  function Init(): (n: Node)
    ensures Valid(n)
    ensures n.registration.None? && n.entryPoint.None? && n.tip.None? && n.base.None?
    ensures n.tipRaw.None? && n.baseRaw.None?
    ensures n.points == [] && n.tipHistory == [] && n.baseHistory == []
    ensures forall k :: 0 <= k < PromptSlots ==> !n.requested[k]
  {
    Node(None, None, None, [], None, None, [], None, [], seq(PromptSlots, k => false))
  }

  // ---------------------------------------------------------------------------
  // Smoothing window

  function Min(a: nat, b: nat): nat {
    if a < b then a else b
  }

  /** The rows handed to the filter: the last `min(n, 500)` readings. */
  function Window(history: seq<Pose>): (w: seq<Pose>)
    ensures |w| == Min(|history|, WindowLimit)
    ensures forall k :: 0 <= k < |w| ==> w[k] == history[|history| - |w| + k]
  {
    history[|history| - Min(|history|, WindowLimit)..]
  }

  /** After a reading is appended the window is non-empty and ends with that
      reading. */
  lemma WindowEndsWithLatest(history: seq<Pose>, reading: Pose)
    ensures var w := Window(history + [reading]);
            |w| > 0 && w[|w| - 1] == reading
  {
  }

  /** A short history is passed whole. */
  lemma WindowOfShortHistory(history: seq<Pose>)
    requires |history| <= WindowLimit
    ensures Window(history) == history
  {
  }

  /** Once the history is full, each new reading pushes the oldest one out of
      the window. */
  lemma WindowSlides(history: seq<Pose>, reading: Pose)
    requires |history| >= WindowLimit
    ensures Window(history + [reading]) == Window(history)[1..] + [reading]
  {
    var h := history + [reading];
    assert Window(h) == h[|h| - WindowLimit..];
    assert Window(history) == history[|history| - WindowLimit..];
  }

  /** The smoothed reading for a history, in the tracker frame. */
  function Smoothed(history: seq<Pose>, filter: Filter): Pose {
    filter(Window(history))
  }

  // ---------------------------------------------------------------------------
  // Callbacks

  /** `aurora_callback`: a tracker reading for the tool `name`. The raw
      reading of a known tool is always stored. Only once a registration
      exists is it also appended to that tool's history, smoothed over the
      window, and mapped into the stage frame. Readings of other tools are
      ignored. */
  function AuroraCallback(n: Node, name: string, reading: Pose, filter: Filter): (r: Node)
    ensures r.registration == n.registration && r.entryPoint == n.entryPoint
    ensures r.points == n.points && r.requested == n.requested
    ensures r.tipRaw == (if name == TipSensor then Some(reading) else n.tipRaw)
    ensures r.baseRaw == (if name == BaseSensor then Some(reading) else n.baseRaw)
    ensures name == TipSensor && n.registration.Some? ==>
              r.tipHistory == n.tipHistory + [reading]
              && r.tip == Some(PoseTransform(Smoothed(r.tipHistory, filter), n.registration.value))
    ensures !(name == TipSensor && n.registration.Some?) ==>
              r.tipHistory == n.tipHistory && r.tip == n.tip
    ensures name == BaseSensor && n.registration.Some? ==>
              r.baseHistory == n.baseHistory + [reading]
              && r.base == Some(PoseTransform(Smoothed(r.baseHistory, filter), n.registration.value))
    ensures !(name == BaseSensor && n.registration.Some?) ==>
              r.baseHistory == n.baseHistory && r.base == n.base
  {
    if name == TipSensor then
      var n1 := n.(tipRaw := Some(reading));
      if n.registration.Some? then
        var h := n.tipHistory + [reading];
        n1.(tipHistory := h, tip := Some(PoseTransform(Smoothed(h, filter), n.registration.value)))
      else n1
    else if name == BaseSensor then
      var n1 := n.(baseRaw := Some(reading));
      if n.registration.Some? then
        var h := n.baseHistory + [reading];
        n1.(baseHistory := h, base := Some(PoseTransform(Smoothed(h, filter), n.registration.value)))
      else n1
    else n
  }

  /** `keyboard_callback`. ENTER while no registration exists appends the
      position of the latest raw tip reading to the registration points.
      Otherwise SPACE while no entry point exists stores the filtered tip pose
      as the entry point. Any other key, or either key with nothing to store,
      changes nothing. */
  function KeyboardCallback(n: Node, key: int): (r: Node)
    ensures key == KeyEnter && n.registration.None? && n.tipRaw.Some? ==>
              r == n.(points := n.points + [n.tipRaw.value.pos])
    ensures key == KeySpace && n.entryPoint.None? && n.tip.Some? ==>
              r == n.(entryPoint := n.tip)
    ensures (!(key == KeyEnter && n.registration.None? && n.tipRaw.Some?)
             && !(key == KeySpace && n.entryPoint.None? && n.tip.Some?)) ==> r == n
  {
    if key == KeyEnter && n.registration.None? then
      if n.tipRaw.None? then n
      else n.(points := n.points + [n.tipRaw.value.pos])
    else if key == KeySpace && n.entryPoint.None? then
      if n.tip.None? then n
      else n.(entryPoint := n.tip)
    else n
  }

  /** The ENTER key adds at most one registration point, and only while no
      registration exists. */
  lemma KeyboardAddsAtMostOnePoint(n: Node, key: int)
    ensures |KeyboardCallback(n, key).points| <= |n.points| + 1
    ensures n.registration.Some? ==> KeyboardCallback(n, key).points == n.points
  {
  }

  /** The filtered poses `timer_aurora_filtered_callback` publishes: the tip
      pose as stored, and the base pose lowered along z by the needle-base
      distance. */
  function FilteredMessages(n: Node): (r: (Option<Pose>, Option<Pose>))
    ensures r.0 == n.tip
    ensures r.1.Some? <==> n.base.Some?
    ensures r.1.Some? ==> r.1.value.rot == n.base.value.rot
                          && r.1.value.pos.x == n.base.value.pos.x
                          && r.1.value.pos.y == n.base.value.pos.y
  {
    (n.tip, match n.base
            case None => None
            case Some(x) => Some(Pose(Sub(x.pos, Vec3(0.0, 0.0, NeedleBaseDistance)), x.rot)))
  }

  /** Raising the published base pose by `DIST_NEEDLE_BASE` gives back
      the stored base pose: the two differ only in z. */
  lemma BaseMessageOffset(n: Node)
    requires n.base.Some?
    ensures var m := FilteredMessages(n).1.value;
            Pose(Add(m.pos, Vec3(0.0, 0.0, NeedleBaseDistance)), m.rot) == n.base.value
            && m.pos.z == n.base.value.pos.z - NeedleBaseDistance
  {
  }
}

=== FILE: wrappers.dfy ===
/** The optional value used for the source's "empty array" sentinels
    (`np.empty(shape=[0,7])` tested with `.size != 0`). */
module Wrappers {

  datatype Option<+T> = None | Some(value: T)
}
